=== FILE: README.md ===
# LAN chat: routing, sessions and framing

A model of the LAN chat application's core: the server's registry of
connected clients and what each of its handlers does, plus the client's line
framer, its choice of outgoing record, and its dispatch on incoming records.

The server keeps a dict from socket to `{username, room, addr}`. Python dicts
keep insertion order, and broadcasts and listings walk that order. So the
registry is an ordered sequence of sessions (`Registry.Clients`), and
`Registry.Unique` states the dict-key invariant. Each event of a connection
handler is a pure step: it maps the registry and the handler's locals
(`Commands.Handler`) to a new registry, new locals, the deliveries it makes
(`Router.Delivery`: connection and record), the log lines it writes, and
whether the handler is still running. A step that raises (`KeyError` on a
missing field, `TypeError` on a document that is not an object, a failed
direct `sendall`) ends the handler, and cleanup (`Server.Disconnect`) runs.
`Router.Env` stands for the outside world during a step: the timestamp string,
and the set of sends that fail, each a connection and the record sent to it.
So within one step a send to a connection can fail while another send to the
same connection goes through.

JSON is abstract. A decoded document is `Wire.Json`: an object with string
fields, or anything else. The encoder and parser are parameters.
`Wire.Faithful` states the two facts the framing relies on:

- parsing an encoding gives the document back;
- an encoding is one line with no whitespace at either end.

Python's `str.strip()`, `str.split()`, `str.split("\n")` and `" ".join` are
modelled in `Text`, with Python's set of whitespace characters.

Modules and files:

| module | file | what it holds |
|---|---|---|
| `Wrappers` | wrappers.dfy | `Option` |
| `Text` | text.dfy | Python string operations |
| `Wire` | wire.dfy | documents, server records, frames |
| `Registry` | registry.dfy | the `clients` dict |
| `Router` | router.dfy | `broadcast`, `send_private`, direct replies |
| `Commands` | commands.dfy | the slash commands |
| `Server` | server.dfy | hello, the receive loop, cleanup, the ban gate, a whole session |
| `Client` | client.dfy | the client's receive loop, `send_msg`, `handle_message` |
| `EndToEnd` | endtoend.dfy | the two programs talking to each other |

The client carries an unfinished line over to its next read
(client.py:238-240). The server strips and splits each read on its own
(server.py:89-93), so a record split across two of its reads is lost.
`Server.ChunkLines` carries nothing over, and `EndToEnd.SplitFrameIsLost`
states the consequence.

## Model

| member | source | states |
|---|---|---|
| Text.Strip | server.py:89 | the result sits inside the input with only whitespace around it, neither starts nor ends with whitespace, and is empty exactly when the input is all whitespace |
| Text.Words | server.py:113 | `split()` yields only non-empty whitespace-free words, and yields none exactly when the input is blank |
| Text.WordsOfInterleave | server.py:113 | words separated by whitespace of any kind and length, with whitespace or nothing before the first and after the last, split into exactly those words. See `Text.InterleaveOfWords` for why this covers every input |
| Text.InterleaveOfWords | server.py:113 | every string is its own words with blank gaps around them and non-empty blank gaps between them, so `Text.WordsOfInterleave` fixes `split()` on every input |
| Text.WordsOfUnwords | server.py:157-158 | words joined by single spaces split back into the same words |
| Text.SplitOn | server.py:93 | `split("\n")` always yields at least one piece, no piece holds the separator, and joining the pieces with it gives the input back |
| Text.SplitOnJoin | server.py:93 | splitting separator-free pieces joined by the separator gives the pieces back |
| Text.SplitOnAppend | client.py:238-240 | splitting `a + b` is splitting `a`, then splitting its unfinished last piece continued by `b` |
| Wire.ToJson | server.py:103-108 | the object built for a record has `type`, `msg` and `time` with the record's values, and has `from` exactly for chat and private records |
| Wire.KeepMeaningful | server.py:94-100 | what is kept from a run of lines is exactly its non-blank, parseable lines: every kept line is one, and every such line is kept |
| Wire.KeepMeaningfulOne | server.py:94-100 | a single line is kept exactly when it is non-blank and parses |
| Wire.KeepMeaningfulAppend | server.py:93-100 | filtering `a + b` is filtering `a`, then filtering `b`, so the kept lines stay in their original order |
| Registry.Lookup | server.py:252-254 | an entry is found exactly when the connection is registered, and it is that connection's entry |
| Registry.Put | server.py:74 | after registration the connection maps to the new session and every other entry is unchanged. A new connection goes at the end; an existing one keeps its place. No duplicate is introduced |
| Registry.Remove | server.py:252-255 | deletes only a registered connection; with no duplicates the result is exactly the other entries, in order, and the connection is gone |
| Registry.SetRoom | server.py:201 | fails (`KeyError`) exactly when the connection is unregistered. Otherwise only that entry's room changes, and connections and order stay the same |
| Registry.Members | server.py:36-37 | the sessions kept are exactly those in the room |
| Registry.MembersAppend | server.py:36 | the members of a later part of the registry come after those of an earlier part |
| Router.Broadcast | server.py:34-41 | every delivery carries the message to a session in the room whose send works. Every such session gets it, so a failed send costs only that recipient. With no duplicate connections, nobody gets it twice |
| Router.BroadcastInRegistryOrder | server.py:36-39 | the recipients are exactly the room's members, in registry order, less those whose send fails |
| Router.BroadcastAppend | server.py:36 | deliveries for an earlier part of the registry precede those for a later part |
| Router.FindUser | server.py:46-47 | finds the first session with the name, and finds none exactly when no session has it |
| Router.SendPrivate | server.py:44-59 | with no session of that name: false and nothing sent. Raises exactly when one exists and the sender is unregistered. At most one delivery, and success exactly when it was made. It goes to the first match and is from the sender's registered name. A failed send to the first match gives false without trying later matches |
| Commands.Reply | server.py:125-136 | a direct reply changes neither the registry nor the handler and writes no log |
| Commands.UserNames | server.py:120-124 | a name is listed exactly when some session in the room has it |
| Commands.UserNamesInOrder | server.py:120-124 | one name per room member, the i-th name belonging to the i-th member in registry order |
| Commands.UserNamesAppend | server.py:122 | names for an earlier part of the registry precede those for a later part |
| Commands.DistinctRooms | server.py:140-142 | every room with a session is listed, each exactly once, and no other |
| Commands.UsersReply | server.py:118-136 | `/users` changes nothing and replies with the room's usernames, one per member, in registry order. The handler stays alive exactly when that reply's send works |
| Commands.AllRoomsReply | server.py:138-154 | `/allrooms` changes nothing and replies with the active rooms, each once and no other. The handler stays alive exactly when that reply's send works |
| Commands.HelpReply | server.py:232-245 | `/help` changes nothing and replies with the command summary. The handler stays alive exactly when that reply's send works |
| Commands.JoinRoom | server.py:186-230 | a `/join` moves no connection, leaves the other entries as they were, keeps the handler's name, and keeps its locals agreeing with the registry |
| Commands.JoinEffects | server.py:186-230 | when the confirmation goes through: "left" reaches exactly the old room's sessions (before the move) whose send works, and "joined" exactly the new room's sessions (after the move) whose send works. The notices are only those two, and no "joined" precedes a "left". The confirmation comes last. The issuer's entry and locals now name the new room, and nothing else changes. The two room logs get "left for" and "joined from" lines |
| Commands.JoinHeard | server.py:190-224 | the deliveries are the old room's broadcast of "left" over the registry before the move, then the new room's broadcast of "joined" over the registry after it, then the confirmation |
| Commands.JoinConfirmLost | server.py:200-230 | if the confirmation's send fails, the entry has already moved and "left" and "joined" have gone out as usual. The confirmation is not delivered, and the handler ends before writing the logs |
| Commands.PmEffects | server.py:156-158 | `/pm` sends the words after the target joined by single spaces; splitting that text gives exactly those words back |
| Commands.PrivateMessageEffects | server.py:156-184 | from a registered sender nothing changes. No match: the issuer is sent "not found". A first match whose send works gets the private record, then the issuer is sent "PM sent". A first match whose send fails: "not found", and later matches are not tried. The handler stays alive exactly when the reply to the issuer goes through |
| Commands.Dispatch | server.py:112-245 | a command keeps the handler frame. A blank command or an unrecognised one is a no-op. That includes `/pm` with fewer than three words and `/join` with fewer than two. Every command but `/join` leaves registry, locals and logs unchanged |
| Commands.JoinDispatch | server.py:186-188 | `/join` with a room word runs the join with the word right after `/join` as the new room; later words are ignored |
| Server.ChatRelay | server.py:102-110 | the chat record, stamped with the sender's name, reaches every member of the room whose send works, the sender included, once per member and in registry order. It reaches no session outside the room. The room log gets one line: the time in brackets, the sender's name, a colon and the text. Nothing else changes |
| Server.HandleLine | server.py:93-113 | blank and unparseable lines do nothing. A non-object document, or an object without `type`, ends the handler. Type `msg` relays the `msg` field and type `command` dispatches the `cmd` field; either field missing ends the handler. Any other type is ignored. Every line keeps the handler frame |
| Server.HandleLines | server.py:93-245 | handling a chunk's lines keeps the handler frame |
| Server.HandleLinesAppend | server.py:93-100 | the lines of `a + b` are handled as the lines of `a`, then, unless one of them ended the handler, the lines of `b` from the state `a` left; outputs and logs are concatenated in that order |
| Server.LinesNoiseIsSkipped | server.py:94-100 | removing the blank and unparseable lines from a chunk changes nothing about how it is handled |
| Server.HandleChunk | server.py:89-93 | a read that strips to nothing ends the loop; any other read is handled as its stripped text's lines, in order, with none carried over; every read keeps the handler frame |
| Server.Serve | server.py:88-100 | the receive loop keeps the handler frame across reads |
| Server.ServeAppend | server.py:88-93 | reads `a + b` are served as `a`, then, unless the loop ended, `b` from the state `a` left; outputs and logs are concatenated in that order |
| Server.ServeOne | server.py:88-93 | one read is served as handling that read's chunk |
| Server.Hello | server.py:66-85 | registers exactly when the stripped first read parses as an object with `username` and `room`, and then under those values. A failed hello changes and sends nothing. A new connection is appended and the other entries stay. The "joined" notice goes to exactly the sessions of the new room whose send works, the joiner included, once per member and in registry order, and to no one else. The room log gets "joined" with the room, and the global log "joined" with the peer's host |
| Server.Disconnect | server.py:250-265 | removes only a registered connection. The leaver is gone and gets nothing. The "left" notice goes to exactly the reachable sessions of the room its entry held, once per member and in registry order. The room log gets "left" and the global log "disconnected" |
| Server.DisconnectIdempotent | server.py:252 | cleanup run twice for one connection does nothing the second time |
| Server.SessionLeavesNoTrace | server.py:250-255 | however a session went, cleanup leaves exactly the other connections' entries, and nothing for this one |
| Server.RunSession | server.py:62-265 | a session of a new connection leaves the registry exactly as it found it, and without duplicates. A failed hello from a new connection does nothing at all. A registered session sends and logs the hello's, then the receive loop's over all its reads, then cleanup's, in that order |
| Server.Gate | server.py:293-310 | admits exactly the peers whose host is not banned. A banned peer gets the "banned" notice exactly when that send works, and nothing else |
| Server.Accept | server.py:289-316 | a banned peer changes no registry entry and writes no log; an admitted peer's connection runs the whole session; any new connection leaves the registry as it found it |
| Client.TakeLines | client.py:238-240 | no newline stays in the buffer. The lines taken, each with its newline, then the buffer, give back old buffer plus new data. The lines are the input's complete lines |
| Client.LinesAppend | client.py:238-240 | framing `a + b` is framing `a`, then framing its unfinished line continued by `b` |
| Client.FeedFramesStream | client.py:231-240 | reads fed one after another frame the same lines, and leave the same buffer, as the whole stream at once |
| Client.ChunkingIrrelevant | client.py:231-240 | two ways of splitting the same stream into reads give the same lines and buffer |
| Client.Payload | client.py:297-307 | a blank entry sends nothing. Stripped text starting with "/" becomes a `command` record with that text. Anything else becomes a `msg` record with it |
| Client.HelloPayload | client.py:183-200 | no username aborts. Otherwise the hello carries the username and the room, with "general" for an empty room |
| Client.FrameIsOneLine | client.py:309 | each frame is one complete line, the encoding, with nothing left over |
| Client.HandleMessage | client.py:259-283 | raises exactly on a non-object or a missing `type`, and shows nothing for unknown types. A chat shows the bracketed time, then the sender ("Unknown" by default), then the text. A private record is one line tagged private with the time, "PM from" the sender ("Unknown" by default) and the text. A system notice is one line tagged system: "[time] " when the time is non-empty, then the information sign and the text |
| Client.NoiseIsSkipped | client.py:241-248 | removing blank and unparseable lines changes neither what is shown nor whether the loop survives |
| Client.ShowLines | client.py:239-253 | the loop survives a run of complete lines exactly when `handle_message` returns normally on every non-blank line that parses |
| Client.ShowLinesOne | client.py:241-253 | a blank or unparseable line shows nothing and goes on; a record `handle_message` raises on shows nothing and ends the loop; any other record shows its segments and goes on |
| Client.ShowLinesAppend | client.py:239-253 | lines are shown in order: `a + b` shows `a`'s segments and then, unless `a` ended the loop, `b`'s, with `b`'s outcome |
| Client.OnData | client.py:232-248 | an empty read means disconnected. Otherwise the buffer keeps the unfinished line, and the complete lines are shown; the loop goes on exactly when none raised |
| EndToEnd.StreamLines | client.py:238-240 | the client frames a stream of frames into exactly the encodings, with nothing pending |
| EndToEnd.WholeFramesChunk | server.py:89-93 | frames that arrive whole in one read become exactly the encodings as the server's lines |
| EndToEnd.StreamChunkHandled | server.py:89-93 | a read of whole frames is handled exactly as the server handling each encoded record as a line, in order |
| EndToEnd.SentLineIsHandled | client.py:297-309 | the frame the client sends for an entry makes the server run that text as a command if it starts with "/", and relay it otherwise |
| EndToEnd.HelloRegisters | client.py:183-201 | the client's hello registers it under its username, and under its room or "general" |
| EndToEnd.RecordShown | client.py:259-283 | what the client shows for each kind of record the server sends, with the record's own sender, text and time |
| EndToEnd.RecordsShown | client.py:241-248 | the client shows the server's records in order and keeps reading |
| EndToEnd.ClientReadsServer | client.py:231-248 | however the server's stream is split into reads, the client frames every record, shows each in order, and ends with an empty buffer |
| EndToEnd.SplitFrameIsLost | server.py:89-100 | read whole, a frame gives exactly its line. Split across two reads, neither read gives it |

## Left out

- Sockets, `recv`/`sendall`, `accept`, bind and listen: a read is a string handed in, and a send is a `Delivery` or a failure chosen by `Env.failed`. A failed send is all-or-nothing; partial `sendall` writes are not modelled.
- Failures are decided per connection and record within one step. Two sends of the same record to the same connection in one step, such as two identical chat lines in one read, fail or succeed together.
- Threads and the unsynchronised shared dict: steps run one at a time. `Commands.Keeps` states what a step touches, which is what interleaving would need.
- UTF-8 decoding of reads, and the 1024-byte read size: a read is already text.
- JSON text: documents are abstract, and field values are strings only. A non-string `username`, `room`, `msg` or `cmd` is not modelled.
- Wall-clock time: one opaque timestamp per step. The server calls `timestamp()` separately for a record and its log line, and those calls can differ.
- File logging: log lines are returned as `LogEntry` values. File errors, `os.makedirs`, and "Server started/stopped" are not modelled.
- Console `print` output and the server's `KeyboardInterrupt` shutdown.
- The client's Tk interface: the connect dialog, status labels, welcome banner and help dialog. The "Connection lost" and "Disconnected" notices carry exception text, so `Client.OnData` reports them as an outcome, not as shown text.
- `banned_ips` is never filled in by the server. `Server.Gate` takes the banned set as a parameter.
- Commands.DistinctRooms: lists rooms in order of first appearance. The server lists a Python set, whose order is arbitrary, so only "each active room once" is promised.
- Client.OnData: when `handle_message` raises, the loop's display of the exception is not modelled; only the outcome `ConnectionLost` is.

=== FILE: client.dfy ===
/**
 The client's side of the protocol: the line framer of its receive loop, the
 choice between a `command` and a `msg` record when the user sends a line,
 the hello it sends on connecting, and the dispatch on incoming record types.

 The Tk widgets are not modelled: what the client shows is the sequence of
 `display_message` calls it makes, as text segments with their tags.
 */
module Client {
  import opened Wrappers
  import opened Text
  import opened Wire

  // ---------------------------------------------------------------------------
  // Framing

  /** The newline-terminated lines of a buffer, without their terminators. */
  function CompleteLines(s: string): seq<string> {
    Init(SplitOn(s, '\n'))
  }

  /** What follows the last newline of a buffer: the start of a line still arriving. */
  function Pending(s: string): string {
    Last(SplitOn(s, '\n'))
  }

  /** Lines written back, each followed by its newline. */
  function Unlines(lines: seq<string>): string {
    if lines == [] then "" else lines[0] + "\n" + Unlines(lines[1..])
  }

  lemma {:induction false} UnlinesSnoc(lines: seq<string>, line: string)
    ensures Unlines(lines + [line]) == Unlines(lines) + line + "\n"
    decreases |lines|
  {
    if lines != [] {
      assert (lines + [line])[1..] == lines[1..] + [line];
      UnlinesSnoc(lines[1..], line);
    }
  }

  lemma UnlinesStep(lines: seq<string>, line: string, rest: string)
    ensures Unlines(lines + [line]) + rest == Unlines(lines) + (line + "\n" + rest)
  {
    UnlinesSnoc(lines, line);
  }

  /** The inner loop of `receive`: append the new data to the buffer, then
      split off lines while the buffer holds a newline. Nothing is lost: the
      lines taken, each with its newline, followed by what stays in the buffer,
      are exactly the old buffer followed by the new data. */
  method TakeLines(buffer: string, data: string) returns (lines: seq<string>, rest: string)
    ensures '\n' !in rest
    ensures forall k :: 0 <= k < |lines| ==> '\n' !in lines[k]
    ensures Unlines(lines) + rest == buffer + data
    ensures lines == CompleteLines(buffer + data) && rest == Pending(buffer + data)
  {
    ghost var all := buffer + data;
    rest := buffer + data;
    lines := [];
    while '\n' in rest
      invariant Taken(all, lines, rest)
      decreases |rest|
    {
      var i := FirstIndex(rest, '\n');
      var line := rest[..i];
      TakeStep(all, lines, rest, i);
      rest := rest[i + 1..];
      lines := lines + [line];
    }
    NoNewlineLeft(all, lines, rest);
  }

  /** The framer's loop invariant: the lines taken so far, then what is still
      buffered, give back the whole input and frame it the same way. */
  ghost predicate Taken(all: string, lines: seq<string>, rest: string) {
    && Unlines(lines) + rest == all
    && (forall k :: 0 <= k < |lines| ==> '\n' !in lines[k])
    && CompleteLines(all) == lines + CompleteLines(rest)
    && Pending(all) == Pending(rest)
  }

  lemma TakeStep(all: string, lines: seq<string>, rest: string, i: nat)
    requires '\n' in rest && i == FirstIndex(rest, '\n') && Taken(all, lines, rest)
    ensures Taken(all, lines + [rest[..i]], rest[i + 1..])
  {
    TakeStepText(all, lines, rest, i);
    TakeStepFraming(all, lines, rest, i);
    NoNewlineIn(lines, rest[..i]);
  }

  lemma NoNewlineIn(lines: seq<string>, line: string)
    requires forall k :: 0 <= k < |lines| ==> '\n' !in lines[k]
    requires '\n' !in line
    ensures forall k :: 0 <= k < |lines + [line]| ==> '\n' !in (lines + [line])[k]
  {
  }

  lemma TakeStepText(all: string, lines: seq<string>, rest: string, i: nat)
    requires '\n' in rest && i == FirstIndex(rest, '\n') && Unlines(lines) + rest == all
    ensures Unlines(lines + [rest[..i]]) + rest[i + 1..] == all
  {
    var line, after := rest[..i], rest[i + 1..];
    assert rest == line + "\n" + after;
    UnlinesStep(lines, line, after);
  }

  lemma TakeStepFraming(all: string, lines: seq<string>, rest: string, i: nat)
    requires '\n' in rest && i == FirstIndex(rest, '\n')
    requires CompleteLines(all) == lines + CompleteLines(rest) && Pending(all) == Pending(rest)
    ensures CompleteLines(all) == (lines + [rest[..i]]) + CompleteLines(rest[i + 1..])
    ensures Pending(all) == Pending(rest[i + 1..])
  {
    TakeOneLine(rest, i);
    assert (lines + [rest[..i]]) + CompleteLines(rest[i + 1..]) == lines + ([rest[..i]] + CompleteLines(rest[i + 1..]));
  }

  lemma NoNewlineLeft(all: string, lines: seq<string>, rest: string)
    requires '\n' !in rest && Taken(all, lines, rest)
    ensures lines == CompleteLines(all) && rest == Pending(all)
  {
    assert SplitOn(rest, '\n') == [rest];
  }

  /** Splitting off the first line of a buffer that holds a newline. */
  lemma TakeOneLine(s: string, i: nat)
    requires '\n' in s && i == FirstIndex(s, '\n')
    ensures s == s[..i] + "\n" + s[i + 1..]
    ensures CompleteLines(s) == [s[..i]] + CompleteLines(s[i + 1..])
    ensures Pending(s) == Pending(s[i + 1..])
  {
    assert SplitOn(s, '\n') == [s[..i]] + SplitOn(s[i + 1..], '\n');
  }

  /** Successive reads through the framer: the lines each read completes, and
      the buffer left at the end. */
  function Feed(buffer: string, chunks: seq<string>): (seq<string>, string)
    decreases |chunks|
  {
    if chunks == [] then ([], buffer)
    else
      var s := buffer + chunks[0];
      var next := Feed(Pending(s), chunks[1..]);
      (CompleteLines(s) + next.0, next.1)
  }

  function Concat(chunks: seq<string>): string {
    if chunks == [] then "" else chunks[0] + Concat(chunks[1..])
  }

  /** Framing `a + b` is framing `a`, then framing its pending text followed by `b`. */
  lemma LinesAppend(a: string, b: string)
    ensures CompleteLines(a + b) == CompleteLines(a) + CompleteLines(Pending(a) + b)
    ensures Pending(a + b) == Pending(Pending(a) + b)
  {
    SplitOnAppend(a, b, '\n');
    var whole := SplitOn(a + b, '\n');
    var last := SplitOn(Pending(a) + b, '\n');
    assert whole == CompleteLines(a) + last;
    assert Init(whole) == CompleteLines(a) + Init(last);
  }

  /** Feeding reads one after another frames the same lines as the whole
      stream read at once. */
  lemma {:induction false} FeedFramesStream(buffer: string, chunks: seq<string>)
    requires '\n' !in buffer
    ensures Feed(buffer, chunks) == (CompleteLines(buffer + Concat(chunks)), Pending(buffer + Concat(chunks)))
    decreases |chunks|
  {
    if chunks == [] {
      assert buffer + "" == buffer;
      assert SplitOn(buffer, '\n') == [buffer];
    } else {
      var s := buffer + chunks[0];
      var tail := Concat(chunks[1..]);
      FeedFramesStream(Pending(s), chunks[1..]);
      assert buffer + Concat(chunks) == s + tail;
      LinesAppend(s, tail);
    }
  }

  /** Where the reads split the stream makes no difference to the lines the
      client handles. */
  lemma ChunkingIrrelevant(chunks1: seq<string>, chunks2: seq<string>)
    requires Concat(chunks1) == Concat(chunks2)
    ensures Feed("", chunks1) == Feed("", chunks2)
  {
    FeedFramesStream("", chunks1);
    FeedFramesStream("", chunks2);
  }

  // ---------------------------------------------------------------------------
  // Sending

  /** `send_msg`: the stripped entry text becomes a `command` record when it
      starts with "/" and a `msg` record otherwise; a blank entry sends nothing. */
  function Payload(input: string): (p: Option<Json>)
    ensures p.None? <==> Blank(input)
    ensures p.Some? ==> p.value.Object? && "type" in p.value.fields
    ensures p.Some? ==> var f := p.value.fields;
              && (f["type"] == "command" <==> StartsWith(Strip(input), "/"))
              && (f["type"] == "command" ==> "cmd" in f && f["cmd"] == Strip(input))
              && (f["type"] != "command" ==> f["type"] == "msg" && "msg" in f && f["msg"] == Strip(input))
  {
    var text := Strip(input);
    if text == [] then None
    else if text[0] == '/' then Some(Object(map["type" := "command", "cmd" := text]))
    else Some(Object(map["type" := "msg", "msg" := text]))
  }

  /** The hello sent on connecting; an empty room name means "general", and an
      empty username aborts the connection. */
  function HelloPayload(username: string, room: string): (p: Option<Json>)
    ensures p.None? <==> username == ""
    ensures p.Some? ==> p.value.Object? && "username" in p.value.fields && "room" in p.value.fields
    ensures p.Some? ==> p.value.fields["username"] == username && p.value.fields["room"] != ""
    ensures p.Some? && room != "" ==> p.value.fields["room"] == room
    ensures p.Some? && room == "" ==> p.value.fields["room"] == "general"
  {
    if username == "" then None
    else Some(Object(map["username" := username, "room" := if room == "" then "general" else room]))
  }

  /** Every frame the client writes is one line. */
  lemma FrameIsOneLine(encode: Json -> string, j: Json)
    requires GoodEncoding(encode(j))
    ensures SplitOn(Frame(encode, j), '\n') == [encode(j), ""]
    ensures CompleteLines(Frame(encode, j)) == [encode(j)] && Pending(Frame(encode, j)) == ""
  {
    SplitOnJoin([encode(j), ""], '\n');
    assert JoinWith([encode(j), ""], "\n") == Frame(encode, j);
  }

  // ---------------------------------------------------------------------------
  // Receiving

  datatype Tag = SystemTag | PrivateTag | TimestampTag | SenderTag

  /** One `display_message` call: the text inserted, newline included, and its tag. */
  datatype Segment = Segment(text: string, tag: Option<Tag>)

  /** `msg.get(key, default)`. */
  function Field(f: map<string, string>, key: string, default: string): string {
    if key in f then f[key] else default
  }

  /** `handle_message`: what one record shows. `None` where `msg["type"]`
      raises, which ends the receive loop. */
  function HandleMessage(j: Json): (r: Option<seq<Segment>>)
    ensures r.None? <==> j.NonObject? || "type" !in j.fields
    ensures r.Some? && j.fields["type"] != "msg" && j.fields["type"] != "system" && j.fields["type"] != "private" ==> r.value == []
    ensures r.Some? && j.fields["type"] == "msg" ==>
              && |r.value| == 3
              && r.value[0] == Segment("[" + Field(j.fields, "time", "") + "] ", Some(TimestampTag))
              && r.value[1] == Segment(Field(j.fields, "from", "Unknown") + ": ", Some(SenderTag))
              && r.value[2] == Segment(Field(j.fields, "msg", "") + "\n", None)
    ensures r.Some? && j.fields["type"] == "private" ==>
              r.value == [Segment("[" + Field(j.fields, "time", "") + "] \U{1F512} [PM from " + Field(j.fields, "from", "Unknown") + "] "
                                  + Field(j.fields, "msg", "") + "\n", Some(PrivateTag))]
    ensures r.Some? && j.fields["type"] == "system" ==>
              var time := Field(j.fields, "time", "");
              r.value == [Segment((if time != "" then "[" + time + "] " else "") + "\U{2139} " + Field(j.fields, "msg", "") + "\n", Some(SystemTag))]
  {
    match j
    case NonObject => None
    case Object(f) =>
      if "type" !in f then None
      else
        var time, text := Field(f, "time", ""), Field(f, "msg", "");
        if f["type"] == "msg" then
          Some([ Segment("[" + time + "] ", Some(TimestampTag)),
                 Segment(Field(f, "from", "Unknown") + ": ", Some(SenderTag)),
                 Segment(text + "\n", None) ])
        else if f["type"] == "system" then
          if time != "" then
            assert "[" + time + "] \U{2139} " + text + "\n" == ("[" + time + "] ") + "\U{2139} " + text + "\n";
            Some([Segment("[" + time + "] \U{2139} " + text + "\n", Some(SystemTag))])
          else
            assert "" + "\U{2139} " + text + "\n" == "\U{2139} " + text + "\n";
            Some([Segment("\U{2139} " + text + "\n", Some(SystemTag))])
        else if f["type"] == "private" then
          Some([Segment("[" + time + "] \U{1F512} [PM from " + Field(f, "from", "Unknown") + "] " + text + "\n", Some(PrivateTag))])
        else Some([])
  }

  /** What a run of complete lines shows, and whether the loop survived them. */
  datatype Shown = Shown(segments: seq<Segment>, ok: bool)

  /** The lines of the inner loop, in order: blank lines and lines that do not
      parse are skipped; a record `handle_message` raises on stops the loop. */
  function ShowLines(lines: seq<string>, parse: string -> Option<Json>): (r: Shown)
    ensures r.ok <==> forall k :: 0 <= k < |lines| && Meaningful(lines[k], parse) ==> HandleMessage(parse(lines[k]).value).Some?
    decreases |lines|
  {
    if lines == [] then Shown([], true)
    else if Strip(lines[0]) == [] then ShowLines(lines[1..], parse)
    else
      match parse(lines[0])
      case None => ShowLines(lines[1..], parse)
      case Some(j) =>
        match HandleMessage(j)
        case None => Shown([], false)
        case Some(segs) =>
          var rest := ShowLines(lines[1..], parse);
          Shown(segs + rest.segments, rest.ok)
  }

  /** A single line: noise shows nothing and goes on, a record `handle_message`
      raises on shows nothing and stops, any other record shows its segments. */
  lemma ShowLinesOne(line: string, parse: string -> Option<Json>)
    ensures !Meaningful(line, parse) ==> ShowLines([line], parse) == Shown([], true)
    ensures Meaningful(line, parse) && HandleMessage(parse(line).value).None? ==> ShowLines([line], parse) == Shown([], false)
    ensures Meaningful(line, parse) && HandleMessage(parse(line).value).Some? ==>
              ShowLines([line], parse) == Shown(HandleMessage(parse(line).value).value, true)
  {
    assert [line][0] == line && [line][1..] == [];
    if Meaningful(line, parse) && HandleMessage(parse(line).value).Some? {
      assert HandleMessage(parse(line).value).value + [] == HandleMessage(parse(line).value).value;
    }
  }

  /** Lines are shown one after another: showing `a + b` is showing `a`, and,
      unless a record of `a` stopped the loop, then showing `b`. */
  lemma {:induction false} ShowLinesAppend(a: seq<string>, b: seq<string>, parse: string -> Option<Json>)
    ensures var first, second := ShowLines(a, parse), ShowLines(b, parse);
            ShowLines(a + b, parse) == if first.ok then Shown(first.segments + second.segments, second.ok) else first
    decreases |a|
  {
    if a == [] {
      assert a + b == b;
    } else {
      assert (a + b)[0] == a[0] && (a + b)[1..] == a[1..] + b;
      ShowLinesAppend(a[1..], b, parse);
      if Meaningful(a[0], parse) && HandleMessage(parse(a[0]).value).Some? {
        var segs := HandleMessage(parse(a[0]).value).value;
        var rest := ShowLines(a[1..], parse);
        assert segs + (rest.segments + ShowLines(b, parse).segments) == (segs + rest.segments) + ShowLines(b, parse).segments;
      }
    }
  }

  /** Blank and unparseable lines neither show anything nor stop the loop:
      removing them changes nothing. */
  lemma {:induction false} NoiseIsSkipped(lines: seq<string>, parse: string -> Option<Json>)
    ensures ShowLines(lines, parse) == ShowLines(KeepMeaningful(lines, parse), parse)
    decreases |lines|
  {
    if lines != [] {
      NoiseIsSkipped(lines[1..], parse);
      if Meaningful(lines[0], parse) {
        assert KeepMeaningful(lines, parse)[1..] == KeepMeaningful(lines[1..], parse);
      }
    }
  }

  /** How a read ends the receive loop, if it does. */
  datatype Outcome = Reading | Disconnected | ConnectionLost

  /** One pass of the receive loop: an empty read means the server closed. */
  method OnData(buffer: string, data: string, parse: string -> Option<Json>)
    returns (shown: seq<Segment>, rest: string, outcome: Outcome)
    ensures data == "" ==> shown == [] && rest == buffer && outcome == Disconnected
    ensures data != "" ==> rest == Pending(buffer + data) && '\n' !in rest
    ensures data != "" ==> var s := ShowLines(CompleteLines(buffer + data), parse);
                          shown == s.segments && (outcome == Reading <==> s.ok) && outcome != Disconnected
  {
    if data == "" {
      return [], buffer, Disconnected;
    }
    var lines;
    lines, rest := TakeLines(buffer, data);
    var s := ShowLines(lines, parse);
    shown := s.segments;
    outcome := if s.ok then Reading else ConnectionLost;
  }
}

=== FILE: commands.dfy ===
/**
 The slash-command interpreter of the server's connection handler: `/users`,
 `/allrooms`, `/pm`, `/join` and `/help`.

 A handler holds its own copies of the connection's `username` and `room`
 (locals of `handle_client`); each step of it is a pure function from the
 registry and those locals to new ones, the records sent, the log lines
 written, and whether the handler is still running (`alive` is false once
 something raised, which sends the handler to its cleanup).
 */
module Commands {
  import opened Wrappers
  import opened Text
  import opened Wire
  import opened Registry
  import opened Router

  /** The locals of one connection handler. */
  datatype Handler = Handler(conn: ConnId, username: string, room: string)

  /** A line for the room log file or for the global log file. */
  datatype LogEntry = RoomLog(room: string, line: string) | GlobalLog(line: string)

  datatype Step = Step(clients: Clients, h: Handler, out: seq<Delivery>, logs: seq<LogEntry>, alive: bool)

  /** The handler's locals say what its registry entry says. */
  predicate Agrees(cs: Clients, h: Handler) {
    && Lookup(cs, h.conn).Some?
    && Lookup(cs, h.conn).value.username == h.username
    && Lookup(cs, h.conn).value.room == h.room
  }

  /** What every step of a handler preserves: no connection is added, removed
      or moved; the other connections' sessions are untouched; the handler's
      identity and name stay; its locals keep agreeing with its entry. */
  predicate Keeps(cs: Clients, h: Handler, r: Step) {
    && SameConns(cs, r.clients)
    && Others(r.clients, h.conn) == Others(cs, h.conn)
    && r.h.conn == h.conn && r.h.username == h.username
    && (Agrees(cs, h) ==> Agrees(r.clients, r.h))
  }

  /** A step that changes nothing and sends nothing. */
  function Idle(cs: Clients, h: Handler): Step {
    Step(cs, h, [], [], true)
  }

  function Notice(text: string, env: Env): Record {
    System(text, env.now)
  }

  /** A system notice sent straight to the issuer; a failed send raises. */
  function Reply(cs: Clients, h: Handler, text: string, env: Env): (r: Step)
    ensures Keeps(cs, h, r) && r.clients == cs && r.h == h && r.logs == []
  {
    var sent := Direct(h.conn, Notice(text, env), env);
    Step(cs, h, sent.out, [], sent.ok)
  }

  /** Usernames of the sessions in `room`, in registry order. */
  function UserNames(cs: Clients, room: string): (names: seq<string>)
    ensures forall n :: n in names <==> exists s :: s in cs && s.room == room && s.username == n
  {
    if |cs| == 0 then []
    else if cs[0].room == room then [cs[0].username] + UserNames(cs[1..], room)
    else UserNames(cs[1..], room)
  }

  /** One name per member of the room, in the order of the registry. */
  lemma {:induction false} UserNamesInOrder(cs: Clients, room: string)
    ensures |UserNames(cs, room)| == |Members(cs, room)|
    ensures forall i :: 0 <= i < |UserNames(cs, room)| ==> UserNames(cs, room)[i] == Members(cs, room)[i].username
    decreases |cs|
  {
    if |cs| > 0 {
      UserNamesInOrder(cs[1..], room);
    }
  }

  /** The listing follows registry order: names for an earlier part of the
      registry come before those for a later part. */
  lemma {:induction false} UserNamesAppend(a: Clients, b: Clients, room: string)
    ensures UserNames(a + b, room) == UserNames(a, room) + UserNames(b, room)
    decreases |a|
  {
    if |a| > 0 {
      assert (a + b)[1..] == a[1..] + b;
      UserNamesAppend(a[1..], b, room);
    } else {
      assert a + b == b;
    }
  }

  /** `rooms` names every room that has a session, each once, and nothing else. */
  ghost predicate ActiveRooms(cs: Clients, rooms: seq<string>) {
    && (forall i, j :: 0 <= i < j < |rooms| ==> rooms[i] != rooms[j])
    && (forall x :: x in rooms <==> exists s :: s in cs && s.room == x)
  }

  /** The rooms that have at least one session, each once. */
  function DistinctRooms(cs: Clients): (rooms: seq<string>)
    ensures ActiveRooms(cs, rooms)
  {
    if |cs| == 0 then []
    else
      var init := cs[..|cs| - 1];
      var last := cs[|cs| - 1];
      var rest := DistinctRooms(init);
      assert cs == init + [last];
      if last.room in rest then rest else rest + [last.room]
  }

  const HelpText := "Commands: /users, /allrooms, /pm <user> <msg>, /join <room>, /help"

  /** `/users`: the names of everyone in the issuer's room, comma-separated. */
  function Users(cs: Clients, h: Handler, env: Env): Step {
    Reply(cs, h, "Users in " + h.room + ": " + JoinWith(UserNames(cs, h.room), ", "), env)
  }

  /** `/allrooms`. The server lists a Python set, whose order is arbitrary;
      here the rooms come in order of first appearance in the registry. */
  function AllRooms(cs: Clients, h: Handler, env: Env): Step {
    Reply(cs, h, "Active rooms: " + JoinWith(DistinctRooms(cs), ", "), env)
  }

  /** `/pm target word...`: the words after the target, joined by single spaces. */
  function PrivateMessage(cs: Clients, h: Handler, target: string, text: string, env: Env): Step {
    match SendPrivate(cs, h.conn, target, text, env)
    case Raised => Step(cs, h, [], [], false)
    case Pm(sent, out) =>
      var reply := Reply(cs, h, if sent then "PM sent to " + target else "User " + target + " not found", env);
      reply.(out := out + reply.out)
  }

  /** `/join new_room`: "left" to the old room, move, "joined" to the new room,
      confirmation to the issuer, then the two room-log lines. */
  function JoinRoom(cs: Clients, h: Handler, newRoom: string, env: Env): (r: Step)
    ensures Keeps(cs, h, r)
  {
    var oldRoom := h.room;
    var left := Broadcast(cs, oldRoom, Notice(h.username + " left the room", env), env);
    match SetRoom(cs, h.conn, newRoom)
    case None => Step(cs, h, left, [], false)
    case Some(cs') =>
      var h' := h.(room := newRoom);
      var joined := Broadcast(cs', newRoom, Notice(h.username + " joined the room", env), env);
      var confirm := Direct(h.conn, Notice("Joined room: " + newRoom, env), env);
      var logs :=
        if confirm.ok then
          [ RoomLog(oldRoom, "[" + env.now + "] " + h.username + " left for " + newRoom),
            RoomLog(newRoom, "[" + env.now + "] " + h.username + " joined from " + oldRoom) ]
        else [];
      Step(cs', h', left + joined + confirm.out, logs, confirm.ok)
  }

  /** The commands that do something; every other command line is ignored. */
  predicate Recognized(parts: seq<string>) {
    && |parts| > 0
    && (|| parts[0] == "/users" || parts[0] == "/allrooms" || parts[0] == "/help"
        || (parts[0] == "/pm" && |parts| >= 3)
        || (parts[0] == "/join" && |parts| >= 2))
  }

  predicate IsJoin(parts: seq<string>) {
    |parts| >= 2 && parts[0] == "/join"
  }

  /** The `command` branch of the handler's loop: `msg["cmd"].split()`, then the
      first word selects the command. */
  function Dispatch(cs: Clients, h: Handler, cmd: string, env: Env): (r: Step)
    ensures Keeps(cs, h, r)
    ensures !Recognized(Words(cmd)) ==> r == Idle(cs, h)
    ensures Blank(cmd) ==> r == Idle(cs, h)
    ensures !IsJoin(Words(cmd)) ==> r.clients == cs && r.h == h && r.logs == []
  {
    var parts := Words(cmd);
    if parts == [] then Idle(cs, h)
    else if parts[0] == "/users" then Users(cs, h, env)
    else if parts[0] == "/allrooms" then AllRooms(cs, h, env)
    else if parts[0] == "/pm" && |parts| >= 3 then PrivateMessage(cs, h, parts[1], Unwords(parts[2..]), env)
    else if parts[0] == "/join" && |parts| >= 2 then JoinRoom(cs, h, parts[1], env)
    else if parts[0] == "/help" then Reply(cs, h, HelpText, env)
    else Idle(cs, h)
  }

  // ---------------------------------------------------------------------------
  // What the commands do

  /** `/users` answers with the names of the issuer's room, one per session, in
      registry order; it changes nothing, and the handler survives exactly when
      that answer goes out. */
  lemma UsersReply(cs: Clients, h: Handler, cmd: string, env: Env)
    requires Words(cmd) != [] && Words(cmd)[0] == "/users"
    ensures var r := Dispatch(cs, h, cmd, env);
            && r.clients == cs && r.h == h && r.logs == []
            && exists names: seq<string> ::
                 && |names| == |Members(cs, h.room)|
                 && (forall i :: 0 <= i < |names| ==> names[i] == Members(cs, h.room)[i].username)
                 && var answer := Delivery(h.conn, Notice("Users in " + h.room + ": " + JoinWith(names, ", "), env));
                    && (r.alive <==> answer !in env.failed)
                    && r.out == (if answer in env.failed then [] else [answer])
  {
    var names := UserNames(cs, h.room);
    UserNamesInOrder(cs, h.room);
    assert Dispatch(cs, h, cmd, env) == Users(cs, h, env);
  }

  /** `/allrooms` names every room that has a session, each once, and nothing
      else; it changes nothing. */
  lemma AllRoomsReply(cs: Clients, h: Handler, cmd: string, env: Env)
    requires Words(cmd) != [] && Words(cmd)[0] == "/allrooms"
    ensures var r := Dispatch(cs, h, cmd, env);
            && r.clients == cs && r.h == h && r.logs == []
            && exists rooms: seq<string> ::
                 && ActiveRooms(cs, rooms)
                 && var answer := Delivery(h.conn, Notice("Active rooms: " + JoinWith(rooms, ", "), env));
                    && (r.alive <==> answer !in env.failed)
                    && r.out == (if answer in env.failed then [] else [answer])
  {
    var rooms := DistinctRooms(cs);
    assert ActiveRooms(cs, rooms);
    DispatchAllRooms(cs, h, cmd, env);
  }

  lemma DispatchAllRooms(cs: Clients, h: Handler, cmd: string, env: Env)
    requires Words(cmd) != [] && Words(cmd)[0] == "/allrooms"
    ensures Dispatch(cs, h, cmd, env) == AllRooms(cs, h, env)
  {
  }

  /** `/help` answers with the command summary. */
  lemma HelpReply(cs: Clients, h: Handler, cmd: string, env: Env)
    requires Words(cmd) != [] && Words(cmd)[0] == "/help"
    ensures var r := Dispatch(cs, h, cmd, env);
            var answer := Delivery(h.conn, Notice(HelpText, env));
            && r.clients == cs && r.h == h && r.logs == []
            && r.out == (if answer in env.failed then [] else [answer])
            && (r.alive <==> answer !in env.failed)
  {
  }

  /** The confirmation a `/join` sends to its issuer. */
  function Confirmation(h: Handler, newRoom: string, env: Env): Delivery {
    Delivery(h.conn, Notice("Joined room: " + newRoom, env))
  }

  /** A `/join` whose confirmation goes through. "left" goes to the old room
      (before the move: the issuer is still in it) and "joined" to the new
      room (after the move: the issuer is already in it); each reaches
      exactly the sessions of its room whose send works, and nobody else.
      The confirmation comes last and no "joined" notice precedes a "left"
      one. Only the issuer's room changes, and both room logs get their line. */
  lemma JoinEffects(cs: Clients, h: Handler, newRoom: string, env: Env)
    requires Agrees(cs, h) && Confirmation(h, newRoom, env) !in env.failed
    ensures var r := JoinRoom(cs, h, newRoom, env);
            var left, joined := Notice(h.username + " left the room", env), Notice(h.username + " joined the room", env);
            && r.alive && r.h == h.(room := newRoom) && Agrees(r.clients, r.h)
            && SameConns(cs, r.clients) && Others(r.clients, h.conn) == Others(cs, h.conn)
            && |r.out| >= 1 && r.out[|r.out| - 1] == Confirmation(h, newRoom, env)
            && var notices := r.out[..|r.out| - 1];
            && (forall s :: s in cs && s.room == h.room && Delivery(s.conn, left) !in env.failed ==> Delivery(s.conn, left) in notices)
            && (forall d :: d in notices && d.rec == left ==> exists s :: s in cs && s.room == h.room && s.conn == d.to)
            && (forall s :: s in r.clients && s.room == newRoom && Delivery(s.conn, joined) !in env.failed ==> Delivery(s.conn, joined) in notices)
            && (forall d :: d in notices && d.rec == joined ==> exists s :: s in r.clients && s.room == newRoom && s.conn == d.to)
            && (forall d :: d in notices ==> d.rec == left || d.rec == joined)
            && (forall i, j :: 0 <= i < j < |notices| ==> !(notices[i].rec == joined && notices[j].rec == left))
            && r.logs == [ RoomLog(h.room, "[" + env.now + "] " + h.username + " left for " + newRoom),
                           RoomLog(newRoom, "[" + env.now + "] " + h.username + " joined from " + h.room) ]
  {
    var left, joined := Notice(h.username + " left the room", env), Notice(h.username + " joined the room", env);
    var outLeft, outJoined := JoinHeard(cs, h, newRoom, env);
    NoticesDiffer(h.username, env);
    var r := JoinRoom(cs, h, newRoom, env);
    assert r.out[..|r.out| - 1] == outLeft + outJoined;
    NoticesApart(outLeft, outJoined, left, joined);
    NoLaterLeft(outLeft, outJoined, left, joined);
  }

  /** In `a + b`, the `left` records are those of `a` and the `joined` ones
      those of `b`, when `a` holds only `left` and `b` only `joined`. */
  lemma NoticesApart(a: seq<Delivery>, b: seq<Delivery>, left: Record, joined: Record)
    requires left != joined
    requires forall d :: d in a ==> d.rec == left
    requires forall d :: d in b ==> d.rec == joined
    ensures forall d :: d in a + b && d.rec == left ==> d in a
    ensures forall d :: d in a + b && d.rec == joined ==> d in b
  {
  }

  /** In `a + b` with only `left` records in `a` and only `joined` ones in
      `b`, no `joined` record comes before a `left` one. */
  lemma NoLaterLeft(a: seq<Delivery>, b: seq<Delivery>, left: Record, joined: Record)
    requires left != joined
    requires forall d :: d in a ==> d.rec == left
    requires forall d :: d in b ==> d.rec == joined
    ensures var out := a + b;
            forall i, j :: 0 <= i < j < |out| ==> !(out[i].rec == joined && out[j].rec == left)
  {
    var out := a + b;
    forall i, j | 0 <= i < j < |out|
      ensures !(out[i].rec == joined && out[j].rec == left)
    {
      if j < |a| {
        assert out[i] == a[i];
      } else {
        assert out[j] == b[j - |a|];
      }
    }
  }

  lemma NoticesDiffer(name: string, env: Env)
    ensures Notice(name + " left the room", env) != Notice(name + " joined the room", env)
  {
    assert (name + " left the room")[|name| + 1] == 'l';
    assert (name + " joined the room")[|name| + 1] == 'j';
  }

  /** The three parts of a `/join` whose confirmation goes through: the old
      room's broadcast of "left", the new room's broadcast of "joined" (over
      the registry after the move), and the confirmation. */
  lemma JoinHeard(cs: Clients, h: Handler, newRoom: string, env: Env) returns (outLeft: seq<Delivery>, outJoined: seq<Delivery>)
    requires Agrees(cs, h) && Confirmation(h, newRoom, env) !in env.failed
    ensures var r := JoinRoom(cs, h, newRoom, env);
            var left, joined := Notice(h.username + " left the room", env), Notice(h.username + " joined the room", env);
            && r.out == outLeft + outJoined + [Confirmation(h, newRoom, env)]
            && outLeft == Broadcast(cs, h.room, left, env)
            && outJoined == Broadcast(r.clients, newRoom, joined, env)
            && (forall d :: d in outLeft ==> d.rec == left)
            && (forall d :: d in outJoined ==> d.rec == joined)
            && r.alive && r.h == h.(room := newRoom)
  {
    var left, joined := Notice(h.username + " left the room", env), Notice(h.username + " joined the room", env);
    var cs' := SetRoom(cs, h.conn, newRoom).value;
    outLeft := Broadcast(cs, h.room, left, env);
    outJoined := Broadcast(cs', newRoom, joined, env);
  }

  /** A `/join` whose confirmation fails: the move has already happened and
      "left" and "joined" have gone out as usual, but the handler ends before
      the logs are written. */
  lemma JoinConfirmLost(cs: Clients, h: Handler, newRoom: string, env: Env)
    requires Agrees(cs, h) && Confirmation(h, newRoom, env) in env.failed
    ensures var r := JoinRoom(cs, h, newRoom, env);
            var left, joined := Notice(h.username + " left the room", env), Notice(h.username + " joined the room", env);
            && !r.alive && r.logs == []
            && Lookup(r.clients, h.conn).Some? && Lookup(r.clients, h.conn).value.room == newRoom
            && r.out == Broadcast(cs, h.room, left, env) + Broadcast(r.clients, newRoom, joined, env)
            && Confirmation(h, newRoom, env) !in r.out
  {
  }

  /** `/join room ...` moves the issuer to the word right after `/join`;
      any further words are ignored. */
  lemma JoinDispatch(cs: Clients, h: Handler, cmd: string, env: Env)
    requires IsJoin(Words(cmd))
    ensures Dispatch(cs, h, cmd, env) == JoinRoom(cs, h, Words(cmd)[1], env)
  {
  }

  /** `/pm target word...` runs `PrivateMessage` with the words after the
      target joined by single spaces, so splitting the text sent gives those
      words back: runs of whitespace collapse to one space. */
  lemma PmEffects(cs: Clients, h: Handler, cmd: string, target: string, ws: seq<string>, env: Env)
    requires Words(cmd) == ["/pm", target] + ws && |ws| >= 1
    ensures Dispatch(cs, h, cmd, env) == PrivateMessage(cs, h, target, Unwords(ws), env)
    ensures Words(Unwords(ws)) == ws
  {
    PmWords(cmd, target, ws);
    var parts := Words(cmd);
    assert parts[0] == "/pm" && |parts| >= 3 && parts[1] == target && parts[2..] == ws;
  }

  /** A private message from a registered sender. The first session named
      `target` gets it, if its send works; the issuer then gets exactly one
      reply: "PM sent" when the private record went out and "not found"
      otherwise. Nothing else changes. */
  lemma PrivateMessageEffects(cs: Clients, h: Handler, target: string, text: string, env: Env)
    requires Agrees(cs, h)
    ensures var r := PrivateMessage(cs, h, target, text, env);
            var notFound := Direct(h.conn, Notice("User " + target + " not found", env), env);
            var sentTo := Direct(h.conn, Notice("PM sent to " + target, env), env);
            && r.clients == cs && r.h == h && r.logs == []
            && ((forall s :: s in cs ==> s.username != target) ==> r.out == notFound.out && r.alive == notFound.ok)
            && (forall i :: 0 <= i < |cs| && cs[i].username == target && (forall k :: 0 <= k < i ==> cs[k].username != target) ==>
                  var pm := Delivery(cs[i].conn, Private(h.username, text, env.now));
                  if pm in env.failed then r.out == notFound.out && r.alive == notFound.ok
                  else r.out == [pm] + sentTo.out && r.alive == sentTo.ok)
  {
    forall i | 0 <= i < |cs| && cs[i].username == target && (forall k :: 0 <= k < i ==> cs[k].username != target)
      ensures FindUser(cs, target) == Some(i)
    {
      FindUserFirst(cs, target, i);
    }
  }

  /** The words after `/pm target`, joined by single spaces, split back into themselves. */
  lemma PmWords(cmd: string, target: string, ws: seq<string>)
    requires Words(cmd) == ["/pm", target] + ws
    ensures Words(Unwords(ws)) == ws
  {
    AllWordsAfter(Words(cmd), 2);
    assert Words(cmd)[2..] == ws;
    WordsOfUnwords(ws);
  }

  lemma AllWordsAfter(parts: seq<string>, n: nat)
    requires n <= |parts| && forall k :: 0 <= k < |parts| ==> IsWord(parts[k])
    ensures forall k :: 0 <= k < |parts| - n ==> IsWord(parts[n..][k])
  {
    forall k | 0 <= k < |parts| - n ensures IsWord(parts[n..][k]) {
      assert parts[n..][k] == parts[n + k];
    }
  }
}

=== FILE: endtoend.dfy ===
/**
 The two programs together: what the server makes of the frames the client
 writes, and what the client shows of the frames the server writes.

 Both directions assume a faithful JSON codec (`Wire.Faithful`): a parsed
 encoding is the document back, and an encoding is one line with no
 whitespace at either end.
 */
module EndToEnd {
  import opened Wrappers
  import opened Text
  import opened Wire
  import opened Registry
  import opened Router
  import opened Commands
  import opened Server
  import opened Client

  /** Documents written back to back, one frame each. */
  function Stream(encode: Json -> string, js: seq<Json>): string {
    if js == [] then "" else Frame(encode, js[0]) + Stream(encode, js[1..])
  }

  function Encodings(encode: Json -> string, js: seq<Json>): (es: seq<string>)
    ensures |es| == |js| && forall k :: 0 <= k < |js| ==> es[k] == encode(js[k])
  {
    if js == [] then [] else [encode(js[0])] + Encodings(encode, js[1..])
  }

  // ---------------------------------------------------------------------------
  // Framing a stream of documents

  /** Every document of `js` encodes to one clean line. */
  predicate WellFramed(encode: Json -> string, js: seq<Json>) {
    forall k :: 0 <= k < |js| ==> GoodEncoding(encode(js[k]))
  }

  /** The client's framer takes a stream of frames apart into exactly the
      encodings, with nothing left pending. */
  lemma {:induction false} StreamLines(encode: Json -> string, js: seq<Json>)
    requires WellFramed(encode, js)
    ensures CompleteLines(Stream(encode, js)) == Encodings(encode, js)
    ensures Pending(Stream(encode, js)) == ""
    decreases |js|
  {
    if js == [] {
      assert SplitOn("", '\n') == [""];
    } else {
      var f := Frame(encode, js[0]);
      var rest := Stream(encode, js[1..]);
      assert Stream(encode, js) == f + rest;
      FrameIsOneLine(encode, js[0]);
      LinesAppend(f, rest);
      assert Pending(f) + rest == rest;
      assert WellFramed(encode, js[1..]) by {
        assert forall k :: 0 <= k < |js| - 1 ==> js[1..][k] == js[k + 1];
      }
      StreamLines(encode, js[1..]);
      assert Encodings(encode, js) == [encode(js[0])] + Encodings(encode, js[1..]);
    }
  }

  /** Split into pieces, a stream of frames is its encodings followed by an
      empty piece. */
  lemma StreamPieces(encode: Json -> string, js: seq<Json>)
    requires WellFramed(encode, js)
    ensures SplitOn(Stream(encode, js), '\n') == Encodings(encode, js) + [""]
  {
    StreamLines(encode, js);
    var parts := SplitOn(Stream(encode, js), '\n');
    assert parts == Init(parts) + [Last(parts)];
  }

  /** `sep.join` of a list followed by an empty piece ends in one more separator. */
  lemma {:induction false} JoinWithEmptyLast(xs: seq<string>, sep: string)
    requires |xs| >= 1
    ensures JoinWith(xs + [""], sep) == JoinWith(xs, sep) + sep
    decreases |xs|
  {
    if |xs| > 1 {
      assert (xs + [""])[1..] == xs[1..] + [""];
      JoinWithEmptyLast(xs[1..], sep);
    } else {
      assert xs + [""] == [xs[0], ""];
      assert JoinWith([""], sep) == "";
    }
  }

  /** `sep.join` of non-empty pieces starts with the first piece's first
      character and ends with the last piece's last character. */
  lemma {:induction false} JoinWithEnds(xs: seq<string>, sep: string)
    requires |xs| >= 1 && forall k :: 0 <= k < |xs| ==> |xs[k]| > 0
    ensures var x := JoinWith(xs, sep);
            |x| > 0 && x[0] == xs[0][0] && x[|x| - 1] == xs[|xs| - 1][|xs[|xs| - 1]| - 1]
    decreases |xs|
  {
    if |xs| > 1 {
      var tail := JoinWith(xs[1..], sep);
      JoinWithEnds(xs[1..], sep);
      assert JoinWith(xs, sep) == xs[0] + (sep + tail);
    }
  }

  /** One frame read whole by the server: the chunk's one line is the encoding. */
  lemma FrameChunk(encode: Json -> string, j: Json)
    requires GoodEncoding(encode(j))
    ensures ChunkLines(Frame(encode, j)) == [encode(j)]
    ensures !Blank(Frame(encode, j))
  {
    var e := encode(j);
    assert Blank("\n");
    StripTrailingSpace(e, "\n");
    assert SplitOn(e, '\n') == [e];
    assert Frame(encode, j)[0] == e[0];
  }

  /** A non-empty stream of frames read whole by the server: the chunk's lines
      are exactly the encodings. */
  lemma WholeFramesChunk(encode: Json -> string, js: seq<Json>)
    requires WellFramed(encode, js) && |js| >= 1
    ensures ChunkLines(Stream(encode, js)) == Encodings(encode, js)
    ensures !Blank(Stream(encode, js))
  {
    var es := Encodings(encode, js);
    StreamStripped(encode, js);
    SplitOnJoin(es, '\n') by {
      forall k | 0 <= k < |es| ensures '\n' !in es[k] {
        assert GoodEncoding(encode(js[k]));
      }
    }
  }

  /** Several frames that arrive in one read are all handled, in order: the
      server's pass over that read is its pass over the encodings. */
  lemma StreamChunkHandled(encode: Json -> string, parse: string -> Option<Json>, js: seq<Json>,
                           cs: Clients, h: Handler, env: Env)
    requires WellFramed(encode, js) && |js| >= 1
    ensures HandleChunk(cs, h, Stream(encode, js), parse, env) == HandleLines(cs, h, Encodings(encode, js), parse, env)
  {
    WholeFramesChunk(encode, js);
  }

  /** Stripping a stream of frames drops just the final newline. */
  lemma StreamStripped(encode: Json -> string, js: seq<Json>)
    requires WellFramed(encode, js) && |js| >= 1
    ensures Strip(Stream(encode, js)) == JoinWith(Encodings(encode, js), "\n")
    ensures !Blank(Stream(encode, js))
  {
    StreamJoined(encode, js);
    JoinedEncodingsEnds(encode, js);
    StripLastNewline(JoinWith(Encodings(encode, js), "\n"));
  }

  lemma JoinedEncodingsEnds(encode: Json -> string, js: seq<Json>)
    requires WellFramed(encode, js) && |js| >= 1
    ensures var x := JoinWith(Encodings(encode, js), "\n");
            |x| > 0 && !IsSpace(x[0]) && !IsSpace(x[|x| - 1])
  {
    var es := Encodings(encode, js);
    assert forall k :: 0 <= k < |es| ==> GoodEncoding(es[k]);
    JoinWithEnds(es, "\n");
  }

  lemma StripLastNewline(x: string)
    requires |x| > 0 && !IsSpace(x[0]) && !IsSpace(x[|x| - 1])
    ensures Strip(x + "\n") == x && !Blank(x + "\n")
  {
    assert Blank("\n");
    StripTrailingSpace(x, "\n");
  }

  lemma StreamJoined(encode: Json -> string, js: seq<Json>)
    requires WellFramed(encode, js) && |js| >= 1
    ensures Stream(encode, js) == JoinWith(Encodings(encode, js), "\n") + "\n"
  {
    StreamPieces(encode, js);
    JoinWithEmptyLast(Encodings(encode, js), "\n");
  }

  // ---------------------------------------------------------------------------
  // Client to server

  /** What the server does with a line the client sent for `input`: a line
      starting with "/" runs as a command, any other line is relayed to the
      room, in both cases with the stripped text. */
  lemma SentLineIsHandled(encode: Json -> string, parse: string -> Option<Json>, input: string,
                          cs: Clients, h: Handler, env: Env)
    requires Faithful(encode, parse) && !Blank(input)
    ensures var p := Payload(input).value;
            var text := Strip(input);
            HandleChunk(cs, h, Frame(encode, p), parse, env)
              == (if StartsWith(text, "/") then Dispatch(cs, h, text, env) else ChatRelay(cs, h, text, env))
  {
    var p := Payload(input).value;
    var e := encode(p);
    assert GoodEncoding(e) && parse(e) == Some(p);
    FrameChunk(encode, p);
    OneLineChunk(cs, h, e, parse, env);
    assert !Blank(e) by {
      assert !IsSpace(e[0]);
    }
  }

  /** A chunk of one line is handled as that line. */
  lemma OneLineChunk(cs: Clients, h: Handler, line: string, parse: string -> Option<Json>, env: Env)
    ensures HandleLines(cs, h, [line], parse, env) == HandleLine(cs, h, line, parse, env)
  {
    var first := HandleLine(cs, h, line, parse, env);
    assert [line][1..] == [];
    assert HandleLines(first.clients, first.h, [], parse, env) == Idle(first.clients, first.h);
  }

  /** The hello the client sends registers it under its username and its room,
      or "general" when it gave none. */
  lemma HelloRegisters(encode: Json -> string, parse: string -> Option<Json>, username: string, room: string,
                       cs: Clients, conn: ConnId, addr: Addr, env: Env)
    requires Faithful(encode, parse) && username != ""
    ensures var o := Hello(cs, conn, addr, Frame(encode, HelloPayload(username, room).value), parse, env);
            && o.handler == Some(Handler(conn, username, if room == "" then "general" else room))
            && Lookup(o.clients, conn) == Some(Session(conn, username, if room == "" then "general" else room, addr))
  {
    var p := HelloPayload(username, room).value;
    assert GoodEncoding(encode(p));
    assert Blank("\n");
    StripTrailingSpace(encode(p), "\n");
  }

  // ---------------------------------------------------------------------------
  // Server to client

  function Documents(rs: seq<Record>): (js: seq<Json>)
    ensures |js| == |rs| && forall k :: 0 <= k < |rs| ==> js[k] == ToJson(rs[k])
  {
    if rs == [] then [] else [ToJson(rs[0])] + Documents(rs[1..])
  }

  /** What the client shows for each record the server sends. */
  lemma {:induction false} RecordShown(r: Record)
    ensures HandleMessage(ToJson(r)).Some?
    ensures r.Chat? ==>
              HandleMessage(ToJson(r)).value ==
                [ Segment("[" + r.time + "] ", Some(TimestampTag)),
                  Segment(r.from + ": ", Some(SenderTag)),
                  Segment(r.msg + "\n", None) ]
    ensures r.System? && r.time != "" ==>
              HandleMessage(ToJson(r)).value == [Segment("[" + r.time + "] \U{2139} " + r.msg + "\n", Some(SystemTag))]
    ensures r.System? && r.time == "" ==>
              HandleMessage(ToJson(r)).value == [Segment("\U{2139} " + r.msg + "\n", Some(SystemTag))]
    ensures r.Private? ==>
              HandleMessage(ToJson(r)).value ==
                [Segment("[" + r.time + "] \U{1F512} [PM from " + r.from + "] " + r.msg + "\n", Some(PrivateTag))]
  {
    var f := ToJson(r).fields;
    assert Field(f, "time", "") == r.time && Field(f, "msg", "") == r.msg;
    assert !r.System? ==> Field(f, "from", "Unknown") == r.from;
  }

  /** Everything shown for a run of records, in order. */
  function Display(rs: seq<Record>): seq<Segment> {
    if rs == [] then [] else HandleMessage(ToJson(rs[0])).value + Display(rs[1..])
  }

  /** The client shows every record the server sent, in order, and keeps reading. */
  lemma {:induction false} RecordsShown(encode: Json -> string, parse: string -> Option<Json>, rs: seq<Record>)
    requires Faithful(encode, parse)
    ensures ShowLines(Encodings(encode, Documents(rs)), parse) == Shown(Display(rs), true)
    decreases |rs|
  {
    if rs != [] {
      var js := Documents(rs);
      var es := Encodings(encode, js);
      assert es[0] == encode(ToJson(rs[0]));
      assert GoodEncoding(es[0]);
      assert !IsSpace(es[0][0]);
      assert Strip(es[0]) != [];
      assert parse(es[0]) == Some(ToJson(rs[0]));
      RecordShown(rs[0]);
      assert es[1..] == Encodings(encode, Documents(rs[1..]));
      RecordsShown(encode, parse, rs[1..]);
    }
  }

  /** However the reads split the server's stream, the client frames every
      record the server sent, shows each in order, and ends each pass with an
      empty buffer. */
  lemma ClientReadsServer(encode: Json -> string, parse: string -> Option<Json>, rs: seq<Record>, chunks: seq<string>)
    requires Faithful(encode, parse)
    requires Concat(chunks) == Stream(encode, Documents(rs))
    ensures Feed("", chunks) == (Encodings(encode, Documents(rs)), "")
    ensures ShowLines(Feed("", chunks).0, parse) == Shown(Display(rs), true)
  {
    FeedFramesStream("", chunks);
    assert "" + Concat(chunks) == Concat(chunks);
    assert WellFramed(encode, Documents(rs)) by {
      forall k | 0 <= k < |rs| ensures GoodEncoding(encode(Documents(rs)[k])) {
        assert GoodEncoding(encode(Documents(rs)[k]));
      }
    }
    StreamLines(encode, Documents(rs));
    RecordsShown(encode, parse, rs);
  }

  // ---------------------------------------------------------------------------
  // The server has no carry-over buffer

  /** A frame split across two reads reaches the server as pieces: neither
      read yields the frame's line, so the record it carries is never handled
      as sent. Read whole, the same frame yields exactly that line. */
  lemma SplitFrameIsLost(encode: Json -> string, parse: string -> Option<Json>, j: Json, cut: nat)
    requires Faithful(encode, parse) && 0 < cut < |encode(j)|
    ensures ChunkLines(Frame(encode, j)) == [encode(j)]
    ensures forall l :: l in ChunkLines(encode(j)[..cut]) ==> |l| < |encode(j)|
    ensures forall l :: l in ChunkLines(encode(j)[cut..] + "\n") ==> |l| < |encode(j)|
  {
    var e := encode(j);
    FrameChunk(encode, j);
    ShortPieces(e[..cut]);
    ShortPieces(e[cut..] + "\n");
    assert |e[cut..] + "\n"| <= |e|;
    StripShortens(e[cut..] + "\n");
    assert IsSpace('\n');
  }

  /** Each piece of a read is no longer than the read itself. */
  lemma ShortPieces(s: string)
    ensures forall l :: l in ChunkLines(s) ==> |l| <= |Strip(s)|
  {
    var parts := ChunkLines(s);
    forall k | 0 <= k < |parts| ensures |parts[k]| <= |Strip(s)| {
      JoinWithLonger(parts, "\n", k);
    }
  }

  /** Stripping a string that ends in whitespace shortens it. */
  lemma StripShortens(s: string)
    requires |s| > 0 && IsSpace(s[|s| - 1])
    ensures |Strip(s)| < |s|
  {
    var r := Strip(s);
    var i :| Flanked(s, i, r);
  }

  lemma {:induction false} JoinWithLonger(xs: seq<string>, sep: string, k: nat)
    requires k < |xs|
    ensures |xs[k]| <= |JoinWith(xs, sep)|
    decreases |xs|
  {
    if |xs| > 1 && k > 0 {
      JoinWithLonger(xs[1..], sep, k - 1);
    }
  }
}

=== FILE: registry.dfy ===
/**
 The server's registry of connected clients, `clients` in the server.

 The server keeps a dict from socket to `{username, room, addr}`; a Python dict
 remembers insertion order and that order is what broadcasts and listings walk,
 so the registry here is a sequence of sessions, at most one per connection.
 */
module Registry {
  import opened Wrappers

  /** Identity of one accepted socket. */
  type ConnId = nat

  /** A peer address `(host, port)` as `accept` returns it. */
  datatype Addr = Addr(host: string, port: int)

  datatype Session = Session(conn: ConnId, username: string, room: string, addr: Addr)

  type Clients = seq<Session>

  predicate Has(cs: Clients, c: ConnId) {
    exists i :: 0 <= i < |cs| && cs[i].conn == c
  }

  /** The dict-key invariant: no connection appears twice. */
  predicate Unique(cs: Clients) {
    forall i, j :: 0 <= i < |cs| && 0 <= j < |cs| && cs[i].conn == cs[j].conn ==> i == j
  }

  /** Same connections in the same order: nothing registered, removed or moved. */
  predicate SameConns(cs: Clients, cs': Clients) {
    |cs'| == |cs| && forall i :: 0 <= i < |cs| ==> cs'[i].conn == cs[i].conn
  }

  /** Position of connection `c`. */
  function IndexOf(cs: Clients, c: ConnId): (r: Option<nat>)
    ensures r.Some? ==> r.value < |cs| && cs[r.value].conn == c
    ensures r.Some? ==> forall k :: 0 <= k < r.value ==> cs[k].conn != c
    ensures r.None? <==> !Has(cs, c)
  {
    if |cs| == 0 then None
    else if cs[0].conn == c then Some(0)
    else
      match IndexOf(cs[1..], c)
      case None =>
        assert forall i :: 1 <= i < |cs| ==> cs[i] == cs[1..][i - 1];
        None
      case Some(i) => Some(i + 1)
  }

  /** `clients.get(sock)`. */
  function Lookup(cs: Clients, c: ConnId): (r: Option<Session>)
    ensures r.Some? <==> Has(cs, c)
    ensures r.Some? ==> r.value in cs && r.value.conn == c
  {
    match IndexOf(cs, c)
    case None => None
    case Some(i) => Some(cs[i])
  }

  /** The sessions of every other connection, in registry order. */
  function Others(cs: Clients, c: ConnId): (r: Clients)
    ensures forall s :: s in r <==> s in cs && s.conn != c
    ensures |r| <= |cs|
  {
    if |cs| == 0 then []
    else if cs[0].conn == c then Others(cs[1..], c)
    else [cs[0]] + Others(cs[1..], c)
  }

  lemma {:induction false} OthersAppend(a: Clients, b: Clients, c: ConnId)
    ensures Others(a + b, c) == Others(a, c) + Others(b, c)
    decreases |a|
  {
    if |a| > 0 {
      assert (a + b)[1..] == a[1..] + b;
      OthersAppend(a[1..], b, c);
    } else {
      assert a + b == b;
    }
  }

  lemma {:induction false} OthersOfAbsent(cs: Clients, c: ConnId)
    requires !Has(cs, c)
    ensures Others(cs, c) == cs
    decreases |cs|
  {
    if |cs| > 0 {
      assert !Has(cs[1..], c) by {
        assert forall i :: 0 <= i < |cs| - 1 ==> cs[1..][i] == cs[i + 1];
      }
      OthersOfAbsent(cs[1..], c);
      assert cs == [cs[0]] + cs[1..];
    }
  }

  lemma {:induction false} OthersUnique(cs: Clients, c: ConnId)
    requires Unique(cs)
    ensures Unique(Others(cs, c))
    decreases |cs|
  {
    if |cs| > 0 {
      assert Unique(cs[1..]) by {
        assert forall k :: 0 <= k < |cs| - 1 ==> cs[1..][k] == cs[k + 1];
      }
      OthersUnique(cs[1..], c);
      var rest := Others(cs[1..], c);
      assert forall s :: s in rest ==> s.conn != cs[0].conn by {
        forall s | s in rest ensures s.conn != cs[0].conn {
          var k :| 0 <= k < |cs[1..]| && cs[1..][k] == s;
          assert cs[k + 1] == s;
        }
      }
    }
  }

  /** Python's `clients[sock] = info`: an existing key keeps its position and
      takes the new value; a new key goes to the end. */
  function Put(cs: Clients, s: Session): (r: Clients)
    ensures Lookup(r, s.conn) == Some(s)
    ensures Others(r, s.conn) == Others(cs, s.conn)
    ensures Unique(cs) ==> Unique(r)
    ensures !Has(cs, s.conn) ==> r == cs + [s]
    ensures Has(cs, s.conn) ==> SameConns(cs, r)
  {
    match IndexOf(cs, s.conn)
    case None =>
      PutNew(cs, s);
      cs + [s]
    case Some(i) =>
      PutExisting(cs, s, i);
      cs[i := s]
  }

  lemma PutNew(cs: Clients, s: Session)
    requires !Has(cs, s.conn)
    ensures Lookup(cs + [s], s.conn) == Some(s)
    ensures Others(cs + [s], s.conn) == Others(cs, s.conn)
    ensures Unique(cs) ==> Unique(cs + [s])
  {
    var r := cs + [s];
    OthersAppend(cs, [s], s.conn);
    assert r[|cs|].conn == s.conn;
    var j := IndexOf(r, s.conn).value;
    assert j == |cs|;
  }

  lemma PutExisting(cs: Clients, s: Session, i: nat)
    requires IndexOf(cs, s.conn) == Some(i)
    ensures Lookup(cs[i := s], s.conn) == Some(s)
    ensures Others(cs[i := s], s.conn) == Others(cs, s.conn)
    ensures Unique(cs) ==> Unique(cs[i := s])
    ensures SameConns(cs, cs[i := s])
  {
    var r := cs[i := s];
    assert SameConns(cs, r);
    SameConnsUnique(cs, r);
    SameConnsIndexOf(cs, r, s.conn);
    ReplaceOthers(cs, s, i);
  }

  lemma SameConnsUnique(cs: Clients, cs': Clients)
    requires SameConns(cs, cs')
    ensures Unique(cs) ==> Unique(cs')
  {
  }

  lemma {:induction false} SameConnsIndexOf(cs: Clients, cs': Clients, c: ConnId)
    requires SameConns(cs, cs')
    ensures IndexOf(cs', c) == IndexOf(cs, c)
    decreases |cs|
  {
    if |cs| > 0 {
      assert SameConns(cs[1..], cs'[1..]) by {
        assert forall k :: 0 <= k < |cs| - 1 ==> cs[1..][k] == cs[k + 1] && cs'[1..][k] == cs'[k + 1];
      }
      SameConnsIndexOf(cs[1..], cs'[1..], c);
    }
  }

  lemma ReplaceOthers(cs: Clients, s: Session, i: nat)
    requires i < |cs| && cs[i].conn == s.conn
    ensures Others(cs[i := s], s.conn) == Others(cs, s.conn)
  {
    var pre, post := cs[..i], cs[i + 1..];
    assert cs == pre + [cs[i]] + post;
    assert cs[i := s] == pre + [s] + post;
    OthersAppend(pre + [cs[i]], post, s.conn);
    OthersAppend(pre, [cs[i]], s.conn);
    OthersAppend(pre + [s], post, s.conn);
    OthersAppend(pre, [s], s.conn);
  }

  /** `del clients[sock]`, run only when the key is present; otherwise nothing happens. */
  function Remove(cs: Clients, c: ConnId): (r: Clients)
    ensures !Has(cs, c) ==> r == cs
    ensures Has(cs, c) ==> |r| == |cs| - 1
    ensures Unique(cs) ==> !Has(r, c) && r == Others(cs, c)
  {
    match IndexOf(cs, c)
    case None =>
      OthersOfAbsent(cs, c);
      cs
    case Some(i) =>
      RemoveAt(cs, c, i);
      cs[..i] + cs[i + 1..]
  }

  lemma RemoveAt(cs: Clients, c: ConnId, i: nat)
    requires IndexOf(cs, c) == Some(i)
    ensures Unique(cs) ==> !Has(cs[..i] + cs[i + 1..], c)
    ensures Unique(cs) ==> cs[..i] + cs[i + 1..] == Others(cs, c)
  {
    if Unique(cs) {
      var pre, post := cs[..i], cs[i + 1..];
      AbsentAround(cs, c, i);
      OthersOfAbsent(pre, c);
      OthersOfAbsent(post, c);
      assert cs == pre + [cs[i]] + post;
      ThreeWayOthers(pre, cs[i], post, c);
      AbsentJoined(pre, post, c);
    }
  }

  /** In a registry without duplicates, the connection at `i` occurs neither
      before nor after `i`. */
  lemma AbsentAround(cs: Clients, c: ConnId, i: nat)
    requires Unique(cs) && i < |cs| && cs[i].conn == c
    ensures !Has(cs[..i], c) && !Has(cs[i + 1..], c)
  {
    var pre, post := cs[..i], cs[i + 1..];
    assert forall k :: 0 <= k < |pre| ==> pre[k] == cs[k];
    assert forall k :: 0 <= k < |post| ==> post[k] == cs[i + 1 + k];
  }

  lemma AbsentJoined(a: Clients, b: Clients, c: ConnId)
    requires !Has(a, c) && !Has(b, c)
    ensures !Has(a + b, c)
  {
    assert forall k :: 0 <= k < |a + b| ==> (a + b)[k] == if k < |a| then a[k] else b[k - |a|];
  }

  lemma ThreeWayOthers(pre: Clients, s: Session, post: Clients, c: ConnId)
    requires s.conn == c
    ensures Others(pre + [s] + post, c) == Others(pre, c) + Others(post, c)
  {
    OthersAppend(pre + [s], post, c);
    OthersAppend(pre, [s], c);
  }

  /** `clients[sock]["room"] = new_room`; `None` where the server's lookup raises `KeyError`. */
  function SetRoom(cs: Clients, c: ConnId, room: string): (r: Option<Clients>)
    ensures r.None? <==> !Has(cs, c)
    ensures r.Some? ==> SameConns(cs, r.value)
    ensures r.Some? ==> Others(r.value, c) == Others(cs, c)
    ensures r.Some? ==> var prev := Lookup(cs, c).value;
                        Lookup(r.value, c) == Some(Session(c, prev.username, room, prev.addr))
  {
    match IndexOf(cs, c)
    case None => None
    case Some(i) =>
      var s := cs[i].(room := room);
      var r := Put(cs, s);
      assert Has(cs, c);
      Some(r)
  }

  /** The sessions in `room`, in registry order. */
  function Members(cs: Clients, room: string): (r: Clients)
    ensures forall s :: s in r <==> s in cs && s.room == room
    ensures |r| <= |cs|
  {
    if |cs| == 0 then []
    else if cs[0].room == room then [cs[0]] + Members(cs[1..], room)
    else Members(cs[1..], room)
  }

  lemma {:induction false} MembersAppend(a: Clients, b: Clients, room: string)
    ensures Members(a + b, room) == Members(a, room) + Members(b, room)
    decreases |a|
  {
    if |a| > 0 {
      assert (a + b)[1..] == a[1..] + b;
      MembersAppend(a[1..], b, room);
    } else {
      assert a + b == b;
    }
  }
}

=== FILE: router.dfy ===
/**
 Delivery of server records to connections: `broadcast` and `send_private`
 in the server, and the direct `sock.sendall` replies to a command's issuer.

 Sockets are not modelled. A send is a `Delivery` of a record to a
 connection, and the environment of a step says which of those sends fail
 (`Env.failed`), so one send to a connection can fail while another to the
 same connection goes through.
 */
module Router {
  import opened Wrappers
  import opened Registry
  import opened Wire

  /** What the outside world decides during one step: the clock reading that
      `timestamp()` returns, and the sends that fail. */
  datatype Env = Env(now: string, failed: set<Delivery>)

  datatype Delivery = Delivery(to: ConnId, rec: Record)

  /** `broadcast(room, message)`: one send attempt per registered session in
      `room`, in registry order. A failed send is caught and skipped, so it
      costs only that recipient its copy. */
  function Broadcast(cs: Clients, room: string, rec: Record, env: Env): (out: seq<Delivery>)
    ensures forall d :: d in out ==> d.rec == rec && d !in env.failed
    ensures forall d :: d in out ==> exists s :: s in cs && s.room == room && s.conn == d.to
    ensures forall s :: s in cs && s.room == room && Delivery(s.conn, rec) !in env.failed ==> Delivery(s.conn, rec) in out
    ensures Unique(cs) ==> forall i, j :: 0 <= i < j < |out| ==> out[i].to != out[j].to
  {
    if |cs| == 0 then []
    else
      var rest := Broadcast(cs[1..], room, rec, env);
      assert Unique(cs) ==> Unique(cs[1..]) && forall s :: s in cs[1..] ==> s.conn != cs[0].conn by {
        if Unique(cs) {
          forall s | s in cs[1..] ensures s.conn != cs[0].conn {
            var k :| 0 <= k < |cs[1..]| && cs[1..][k] == s;
            assert cs[k + 1] == s;
          }
        }
      }
      if cs[0].room == room && Delivery(cs[0].conn, rec) !in env.failed then
        [Delivery(cs[0].conn, rec)] + rest
      else
        rest
  }

  /** Broadcasting walks the registry front to back: the deliveries for an
      earlier part of the registry all come before those for a later part. */
  lemma {:induction false} BroadcastAppend(a: Clients, b: Clients, room: string, rec: Record, env: Env)
    ensures Broadcast(a + b, room, rec, env) == Broadcast(a, room, rec, env) + Broadcast(b, room, rec, env)
    decreases |a|
  {
    if |a| > 0 {
      assert (a + b)[1..] == a[1..] + b;
      BroadcastAppend(a[1..], b, room, rec, env);
    } else {
      assert a + b == b;
    }
  }

  /** The connections of the sessions `ms` to which a send of `rec` goes through, in order. */
  function Reachable(ms: Clients, rec: Record, env: Env): seq<ConnId> {
    if |ms| == 0 then []
    else (if Delivery(ms[0].conn, rec) in env.failed then [] else [ms[0].conn]) + Reachable(ms[1..], rec, env)
  }

  /** The connections a run of deliveries goes to, in order. */
  function Recipients(out: seq<Delivery>): seq<ConnId> {
    if |out| == 0 then [] else [out[0].to] + Recipients(out[1..])
  }

  /** Exactly the room's members, in registry order, less those whose send fails. */
  lemma {:induction false} BroadcastInRegistryOrder(cs: Clients, room: string, rec: Record, env: Env)
    ensures Recipients(Broadcast(cs, room, rec, env)) == Reachable(Members(cs, room), rec, env)
    decreases |cs|
  {
    if |cs| > 0 {
      BroadcastInRegistryOrder(cs[1..], room, rec, env);
    }
  }

  /** Position of the first session registered under `name`. */
  function FindUser(cs: Clients, name: string): (r: Option<nat>)
    ensures r.Some? ==> r.value < |cs| && cs[r.value].username == name
    ensures r.Some? ==> forall k :: 0 <= k < r.value ==> cs[k].username != name
    ensures r.None? <==> forall s :: s in cs ==> s.username != name
  {
    if |cs| == 0 then None
    else if cs[0].username == name then Some(0)
    else
      match FindUser(cs[1..], name)
      case None => None
      case Some(i) => Some(i + 1)
  }

  /** The first session named `name` is the one `FindUser` finds. */
  lemma FindUserFirst(cs: Clients, name: string, i: nat)
    requires i < |cs| && cs[i].username == name && forall k :: 0 <= k < i ==> cs[k].username != name
    ensures FindUser(cs, name) == Some(i)
  {
    var j := FindUser(cs, name).value;
    assert !(j < i) && !(i < j);
  }

  /** Result of `send_private`: whether it reported success and what it sent,
      or `Raised` where looking up the sender's name raises `KeyError`. */
  datatype PmOutcome = Raised | Pm(sent: bool, out: seq<Delivery>)

  /** `send_private(sender_sock, target, text)`: the first session named
      `target` gets one `private` record from the sender's registered name.
      The result is false when no session has that name, and also when the
      send to that session fails; later sessions with the same name are
      never tried. */
  function SendPrivate(cs: Clients, sender: ConnId, target: string, text: string, env: Env): (r: PmOutcome)
    ensures (forall s :: s in cs ==> s.username != target) ==> r == Pm(false, [])
    ensures r.Raised? <==> (exists s :: s in cs && s.username == target) && !Has(cs, sender)
    ensures r.Pm? ==> |r.out| <= 1 && (r.sent <==> r.out != [])
    ensures r.Pm? && r.sent ==>
              exists i :: 0 <= i < |cs| && cs[i].username == target
                          && (forall k :: 0 <= k < i ==> cs[k].username != target)
                          && Has(cs, sender)
                          && var pm := Delivery(cs[i].conn, Private(Lookup(cs, sender).value.username, text, env.now));
                             pm !in env.failed && r.out == [pm]
    ensures r.Pm? && !r.sent && (exists s :: s in cs && s.username == target) ==>
              exists i :: 0 <= i < |cs| && cs[i].username == target
                          && (forall k :: 0 <= k < i ==> cs[k].username != target)
                          && Has(cs, sender)
                          && Delivery(cs[i].conn, Private(Lookup(cs, sender).value.username, text, env.now)) in env.failed
  {
    match FindUser(cs, target)
    case None => Pm(false, [])
    case Some(i) =>
      match Lookup(cs, sender)
      case None => Raised
      case Some(from) =>
        var pm := Delivery(cs[i].conn, Private(from.username, text, env.now));
        if pm in env.failed then Pm(false, []) else Pm(true, [pm])
  }

  /** A direct `sock.sendall` to one connection: it either delivers or raises. */
  datatype Sent = Sent(out: seq<Delivery>, ok: bool)

  function Direct(c: ConnId, rec: Record, env: Env): Sent {
    if Delivery(c, rec) in env.failed then Sent([], false) else Sent([Delivery(c, rec)], true)
  }
}

=== FILE: server.dfy ===
/**
 The server's connection handler (`handle_client`) and the ban check at
 accept (`start_server`), as pure steps over the registry.

 Every read of the socket is an input: the hello chunk, then one chunk per
 `recv`, each with the environment (`Env`) of the step that handles it.
 Threads are not modelled: each step runs on its own, and what the
 concurrency story needs from a step is the `Keeps` frame property — a
 handler's step touches its own session and nothing else.
 */
module Server {
  import opened Wrappers
  import opened Text
  import opened Wire
  import opened Registry
  import opened Router
  import opened Commands

  /** One `recv` result and the environment of the step that handles it. */
  datatype Read = Read(data: string, env: Env)

  /** Sequencing: `first`, then `rest` started from `first`'s state. */
  function Then(first: Step, rest: Step): Step {
    Step(rest.clients, rest.h, first.out + rest.out, first.logs + rest.logs, rest.alive)
  }

  /** A step that ends the handler, by an exception or by leaving the receive
      loop: nothing more is sent and the handler goes to cleanup. */
  function Raise(cs: Clients, h: Handler): Step {
    Step(cs, h, [], [], false)
  }

  /** The `msg` branch: relay the text to the sender's room, stamped with its name. */
  function ChatRelay(cs: Clients, h: Handler, text: string, env: Env): (r: Step)
    ensures Keeps(cs, h, r) && r.clients == cs && r.h == h && r.alive
    ensures forall d :: d in r.out ==> d.rec == Chat(h.username, text, env.now)
    ensures forall d :: d in r.out ==> exists s :: s in cs && s.room == h.room && s.conn == d.to
    ensures forall s :: s in cs && s.room == h.room && Delivery(s.conn, Chat(h.username, text, env.now)) !in env.failed ==>
              Delivery(s.conn, Chat(h.username, text, env.now)) in r.out
    ensures var echo := Delivery(h.conn, Chat(h.username, text, env.now));
            Agrees(cs, h) && echo !in env.failed ==> echo in r.out
    ensures Recipients(r.out) == Reachable(Members(cs, h.room), Chat(h.username, text, env.now), env)
    ensures r.logs == [RoomLog(h.room, "[" + env.now + "] " + h.username + ": " + text)]
  {
    var rec := Chat(h.username, text, env.now);
    BroadcastInRegistryOrder(cs, h.room, rec, env);
    Step(cs, h, Broadcast(cs, h.room, rec, env), [RoomLog(h.room, "[" + rec.time + "] " + h.username + ": " + text)], true)
  }

  /** One line of a chunk. Blank lines and lines that do not parse are
      skipped. A parsed document that is not an object, or lacks a field the
      branch reads, raises and ends the connection. Unknown types are ignored. */
  function HandleLine(cs: Clients, h: Handler, line: string, parse: string -> Option<Json>, env: Env): (r: Step)
    ensures Keeps(cs, h, r)
    ensures Blank(line) || parse(line).None? ==> r == Idle(cs, h)
    ensures !Blank(line) && parse(line) == Some(NonObject) ==> r == Raise(cs, h)
    ensures !Blank(line) && (exists f :: parse(line) == Some(Object(f)) && "type" !in f) ==> r == Raise(cs, h)
    ensures forall f :: !Blank(line) && parse(line) == Some(Object(f)) && "type" in f && f["type"] == "msg" ==>
              r == if "msg" in f then ChatRelay(cs, h, f["msg"], env) else Raise(cs, h)
    ensures forall f :: !Blank(line) && parse(line) == Some(Object(f)) && "type" in f && f["type"] == "command" ==>
              r == if "cmd" in f then Dispatch(cs, h, f["cmd"], env) else Raise(cs, h)
    ensures forall f :: !Blank(line) && parse(line) == Some(Object(f)) && "type" in f && f["type"] != "msg" && f["type"] != "command" ==>
              r == Idle(cs, h)
  {
    if Strip(line) == [] then Idle(cs, h)
    else
      match parse(line)
      case None => Idle(cs, h)
      case Some(NonObject) => Raise(cs, h)
      case Some(Object(f)) =>
        if "type" !in f then Raise(cs, h)
        else if f["type"] == "msg" then
          if "msg" in f then ChatRelay(cs, h, f["msg"], env) else Raise(cs, h)
        else if f["type"] == "command" then
          if "cmd" in f then Dispatch(cs, h, f["cmd"], env) else Raise(cs, h)
        else Idle(cs, h)
  }

  /** The lines of one chunk, handled in order until one raises. */
  function HandleLines(cs: Clients, h: Handler, lines: seq<string>, parse: string -> Option<Json>, env: Env): (r: Step)
    ensures Keeps(cs, h, r)
    decreases |lines|
  {
    if lines == [] then Idle(cs, h)
    else
      var first := HandleLine(cs, h, lines[0], parse, env);
      if !first.alive then first
      else Then(first, HandleLines(first.clients, first.h, lines[1..], parse, env))
  }

  /** A chunk's lines are handled one after another: handling `a + b` is
      handling `a`, then, unless that raised, handling `b` from the state `a`
      left behind. */
  lemma {:induction false} HandleLinesAppend(cs: Clients, h: Handler, a: seq<string>, b: seq<string>,
                                             parse: string -> Option<Json>, env: Env)
    ensures var first := HandleLines(cs, h, a, parse, env);
            HandleLines(cs, h, a + b, parse, env)
              == if first.alive then Then(first, HandleLines(first.clients, first.h, b, parse, env)) else first
    decreases |a|
  {
    if a == [] {
      Behead(a, b);
      ThenIdle(HandleLines(cs, h, b, parse, env), cs, h);
    } else {
      var line := HandleLine(cs, h, a[0], parse, env);
      Behead(a, b);
      if line.alive {
        HandleLinesAppend(line.clients, line.h, a[1..], b, parse, env);
        var rest := HandleLines(line.clients, line.h, a[1..], parse, env);
        if rest.alive {
          ThenAssoc(line, rest, HandleLines(rest.clients, rest.h, b, parse, env));
        }
      }
    }
  }

  lemma Behead<T>(a: seq<T>, b: seq<T>)
    ensures a == [] ==> a + b == b
    ensures a != [] ==> (a + b)[0] == a[0] && (a + b)[1..] == a[1..] + b
  {
  }

  /** Doing nothing first changes nothing. */
  lemma ThenIdle(r: Step, cs: Clients, h: Handler)
    ensures Then(Idle(cs, h), r) == r
  {
    assert [] + r.out == r.out && [] + r.logs == r.logs;
  }

  lemma ThenAssoc(x: Step, y: Step, z: Step)
    ensures Then(Then(x, y), z) == Then(x, Then(y, z))
  {
    assert (x.out + y.out) + z.out == x.out + (y.out + z.out);
    assert (x.logs + y.logs) + z.logs == x.logs + (y.logs + z.logs);
  }

  /** Blank lines and lines that do not parse neither change nor send anything
      nor end the loop: handling a chunk's lines is handling only the lines it
      acts on. */
  lemma {:induction false} LinesNoiseIsSkipped(cs: Clients, h: Handler, lines: seq<string>, parse: string -> Option<Json>, env: Env)
    ensures HandleLines(cs, h, lines, parse, env) == HandleLines(cs, h, KeepMeaningful(lines, parse), parse, env)
    decreases |lines|
  {
    if lines != [] {
      if Meaningful(lines[0], parse) {
        var first := HandleLine(cs, h, lines[0], parse, env);
        var kept := KeepMeaningful(lines, parse);
        assert kept[0] == lines[0] && kept[1..] == KeepMeaningful(lines[1..], parse);
        if first.alive {
          LinesNoiseIsSkipped(first.clients, first.h, lines[1..], parse, env);
        }
      } else {
        LinesNoiseIsSkipped(cs, h, lines[1..], parse, env);
        var rest := HandleLines(cs, h, lines[1..], parse, env);
        assert Then(Idle(cs, h), rest) == rest;
      }
    }
  }

  /** The lines the handler takes from one chunk: `raw.strip().split("\n")`.
      Nothing is carried over from one chunk to the next. */
  function ChunkLines(raw: string): seq<string> {
    SplitOn(Strip(raw), '\n')
  }

  /** One pass of the receive loop. A chunk that strips to nothing ends the
      loop (a plain `break`, with the same outcome as a raise: nothing sent,
      cleanup next); any other chunk's lines are handled in order. */
  function HandleChunk(cs: Clients, h: Handler, raw: string, parse: string -> Option<Json>, env: Env): (r: Step)
    ensures Keeps(cs, h, r)
    ensures Blank(raw) ==> r == Raise(cs, h)
    ensures !Blank(raw) ==> r == HandleLines(cs, h, ChunkLines(raw), parse, env)
  {
    if Strip(raw) == [] then Raise(cs, h)
    else HandleLines(cs, h, ChunkLines(raw), parse, env)
  }

  /** The receive loop over successive inputs, until one of them ends it. */
  function Serve(cs: Clients, h: Handler, inputs: seq<Read>, parse: string -> Option<Json>): (r: Step)
    ensures Keeps(cs, h, r)
    decreases |inputs|
  {
    if inputs == [] then Idle(cs, h)
    else
      var first := HandleChunk(cs, h, inputs[0].data, parse, inputs[0].env);
      if !first.alive then first
      else Then(first, Serve(first.clients, first.h, inputs[1..], parse))
  }

  /** Reads are handled one after another: serving `a + b` is serving `a`,
      then, unless that ended the loop, serving `b` from the state `a` left
      behind. */
  lemma {:induction false} ServeAppend(cs: Clients, h: Handler, a: seq<Read>, b: seq<Read>, parse: string -> Option<Json>)
    ensures var first := Serve(cs, h, a, parse);
            Serve(cs, h, a + b, parse)
              == if first.alive then Then(first, Serve(first.clients, first.h, b, parse)) else first
    decreases |a|
  {
    if a == [] {
      Behead(a, b);
      ThenIdle(Serve(cs, h, b, parse), cs, h);
    } else {
      var chunk := HandleChunk(cs, h, a[0].data, parse, a[0].env);
      Behead(a, b);
      if chunk.alive {
        ServeAppend(chunk.clients, chunk.h, a[1..], b, parse);
        var rest := Serve(chunk.clients, chunk.h, a[1..], parse);
        if rest.alive {
          ThenAssoc(chunk, rest, Serve(rest.clients, rest.h, b, parse));
        }
      }
    }
  }

  /** A single read is served as that read's chunk. */
  lemma ServeOne(cs: Clients, h: Handler, rd: Read, parse: string -> Option<Json>)
    ensures Serve(cs, h, [rd], parse) == HandleChunk(cs, h, rd.data, parse, rd.env)
  {
    var first := HandleChunk(cs, h, rd.data, parse, rd.env);
    assert [rd][0] == rd && [rd][1..] == [];
    if first.alive {
      ThenNothing(first);
    }
  }

  /** Doing nothing afterwards changes nothing. */
  lemma ThenNothing(r: Step)
    requires r.alive
    ensures Then(r, Idle(r.clients, r.h)) == r
  {
    assert r.out + [] == r.out && r.logs + [] == r.logs;
  }

  /** The result of the hello phase: the handler, if the hello registered one. */
  datatype Opened = Opened(clients: Clients, handler: Option<Handler>, out: seq<Delivery>, logs: seq<LogEntry>)

  /** Hello and registration: the first chunk, stripped, must parse as an object
      with `username` and `room`; the session is registered before the
      "joined" notice goes out to its room. */
  function Hello(cs: Clients, conn: ConnId, addr: Addr, data: string, parse: string -> Option<Json>, env: Env): (r: Opened)
    ensures r.handler.None? ==> r == Opened(cs, None, [], [])
    ensures r.handler.Some? <==> exists f :: parse(Strip(data)) == Some(Object(f)) && "username" in f && "room" in f
    ensures forall f :: parse(Strip(data)) == Some(Object(f)) && "username" in f && "room" in f ==>
              r.handler == Some(Handler(conn, f["username"], f["room"]))
    ensures r.handler.Some? ==>
              var h, joined := r.handler.value, Notice(r.handler.value.username + " joined the room", env);
              && (forall d :: d in r.out ==> d.rec == joined && exists s :: s in r.clients && s.room == h.room && s.conn == d.to)
              && (forall s :: s in r.clients && s.room == h.room && Delivery(s.conn, joined) !in env.failed ==> Delivery(s.conn, joined) in r.out)
              && (Delivery(conn, joined) !in env.failed ==> Delivery(conn, joined) in r.out)
              && Recipients(r.out) == Reachable(Members(r.clients, h.room), joined, env)
    ensures r.handler.Some? ==>
              var h := r.handler.value;
              r.logs == [ RoomLog(h.room, "[" + env.now + "] " + h.username + " joined " + h.room),
                          GlobalLog("[" + env.now + "] " + h.username + " (" + addr.host + ") joined " + h.room) ]
    ensures r.handler.Some? ==> r.handler.value.conn == conn && Agrees(r.clients, r.handler.value)
    ensures r.handler.Some? ==> Others(r.clients, conn) == Others(cs, conn)
    ensures r.handler.Some? && !Has(cs, conn) ==> r.clients == cs + [Session(conn, r.handler.value.username, r.handler.value.room, addr)]
    ensures Unique(cs) ==> Unique(r.clients)
  {
    match parse(Strip(data))
    case Some(Object(f)) =>
      if "username" in f && "room" in f then
        var name, room := f["username"], f["room"];
        var cs' := Put(cs, Session(conn, name, room, addr));
        var notice := Broadcast(cs', room, Notice(name + " joined the room", env), env);
        BroadcastInRegistryOrder(cs', room, Notice(name + " joined the room", env), env);
        var logs := [ RoomLog(room, "[" + env.now + "] " + name + " joined " + room),
                      GlobalLog("[" + env.now + "] " + name + " (" + addr.host + ") joined " + room) ];
        Opened(cs', Some(Handler(conn, name, room)), notice, logs)
      else Opened(cs, None, [], [])
    case _ => Opened(cs, None, [], [])
  }

  /** The result of cleanup. */
  datatype Closed = Closed(clients: Clients, out: seq<Delivery>, logs: seq<LogEntry>)

  /** The `finally` block: if the connection is still registered, remove it,
      then tell the room its entry held that it left. */
  function Disconnect(cs: Clients, conn: ConnId, env: Env): (r: Closed)
    ensures !Has(cs, conn) ==> r == Closed(cs, [], [])
    ensures Unique(cs) ==> r.clients == Others(cs, conn) && !Has(r.clients, conn)
    ensures Unique(cs) ==> forall d :: d in r.out ==> d.to != conn
    ensures Has(cs, conn) ==>
              var s := Lookup(cs, conn).value;
              && (forall d :: d in r.out ==> d.rec == Notice(s.username + " left the room", env))
              && (forall t :: t in r.clients && t.room == s.room && Delivery(t.conn, Notice(s.username + " left the room", env)) !in env.failed ==>
                    Delivery(t.conn, Notice(s.username + " left the room", env)) in r.out)
              && (forall d :: d in r.out ==> exists t :: t in r.clients && t.room == s.room && t.conn == d.to)
              && Recipients(r.out) == Reachable(Members(r.clients, s.room), Notice(s.username + " left the room", env), env)
              && r.logs == [ RoomLog(s.room, "[" + env.now + "] " + s.username + " left " + s.room),
                             GlobalLog("[" + env.now + "] " + s.username + " disconnected") ]
  {
    match Lookup(cs, conn)
    case None =>
      OthersOfAbsent(cs, conn);
      Closed(cs, [], [])
    case Some(s) =>
      var cs' := Remove(cs, conn);
      var notice := Notice(s.username + " left the room", env);
      var logs := [ RoomLog(s.room, "[" + env.now + "] " + s.username + " left " + s.room),
                    GlobalLog("[" + env.now + "] " + s.username + " disconnected") ];
      BroadcastInRegistryOrder(cs', s.room, notice, env);
      Closed(cs', Broadcast(cs', s.room, notice, env), logs)
  }

  /** Cleanup only removes what is there: running it a second time for the
      same connection does nothing. */
  lemma DisconnectIdempotent(cs: Clients, conn: ConnId, env: Env, env': Env)
    requires Unique(cs)
    ensures var d := Disconnect(cs, conn, env);
            Disconnect(d.clients, conn, env') == Closed(d.clients, [], [])
  {
  }

  /** One connection from hello to cleanup: the hello, the reads the loop
      handles, and the cleanup that runs however the loop ended (a raise, an
      empty read, or the end of `inputs`, taken as the peer closing). */
  function RunSession(cs: Clients, conn: ConnId, addr: Addr, hello: Read, inputs: seq<Read>,
                      parse: string -> Option<Json>, close: Env): (r: Closed)
    ensures Unique(cs) ==> Unique(r.clients) && !Has(r.clients, conn)
    ensures Unique(cs) && !Has(cs, conn) ==> r.clients == cs
    ensures var o := Hello(cs, conn, addr, hello.data, parse, hello.env);
            o.handler.None? && !Has(cs, conn) ==> r == Closed(cs, [], [])
    ensures var o := Hello(cs, conn, addr, hello.data, parse, hello.env);
            o.handler.Some? ==>
              var s := Serve(o.clients, o.handler.value, inputs, parse);
              var d := Disconnect(s.clients, conn, close);
              r == Closed(d.clients, o.out + s.out + d.out, o.logs + s.logs + d.logs)
  {
    SessionLeavesNoTrace(cs, conn, addr, hello, inputs, parse, close);
    var o := Hello(cs, conn, addr, hello.data, parse, hello.env);
    match o.handler
    case None =>
      var d := Disconnect(o.clients, conn, close);
      Closed(d.clients, o.out + d.out, o.logs + d.logs)
    case Some(h) =>
      var s := Serve(o.clients, h, inputs, parse);
      var d := Disconnect(s.clients, conn, close);
      Closed(d.clients, o.out + s.out + d.out, o.logs + s.logs + d.logs)
  }

  /** What the accept loop does with a new connection. */
  datatype Admission = Admitted | Rejected(out: seq<Delivery>)

  /** The ban check: a peer whose host is banned gets one "banned" notice (if
      the send works) and is closed before any handler starts. */
  function Gate(banned: set<string>, conn: ConnId, addr: Addr, env: Env): (r: Admission)
    ensures r.Admitted? <==> addr.host !in banned
    ensures r.Rejected? ==> (r.out == [] <==> Delivery(conn, Notice("Your IP is banned.", env)) in env.failed)
    ensures r.Rejected? ==> forall d :: d in r.out ==> d == Delivery(conn, Notice("Your IP is banned.", env))
  {
    if addr.host in banned then Rejected(Direct(conn, Notice("Your IP is banned.", env), env).out)
    else Admitted
  }

  /** Accepting a connection: the gate, then, if admitted, the whole session. */
  function Accept(cs: Clients, banned: set<string>, conn: ConnId, addr: Addr, hello: Read, inputs: seq<Read>,
                  parse: string -> Option<Json>, close: Env): (r: Closed)
    ensures addr.host in banned ==> r.clients == cs && r.logs == [] && forall d :: d in r.out ==> d.to == conn
    ensures Unique(cs) && !Has(cs, conn) ==> r.clients == cs
    ensures addr.host !in banned ==> r == RunSession(cs, conn, addr, hello, inputs, parse, close)
  {
    match Gate(banned, conn, addr, hello.env)
    case Rejected(out) => Closed(cs, out, [])
    case Admitted => RunSession(cs, conn, addr, hello, inputs, parse, close)
  }

  /** What cleanup leaves of the registry after a session, however the
      session went: every other connection's entry as it was, and nothing for
      this connection. */
  lemma SessionLeavesNoTrace(cs: Clients, conn: ConnId, addr: Addr, hello: Read, inputs: seq<Read>,
                             parse: string -> Option<Json>, close: Env)
    ensures var o := Hello(cs, conn, addr, hello.data, parse, hello.env);
            var last := if o.handler.None? then o.clients else Serve(o.clients, o.handler.value, inputs, parse).clients;
            var after := Disconnect(last, conn, close).clients;
            Unique(cs) ==>
            && Unique(after) && !Has(after, conn) && after == Others(cs, conn)
            && (!Has(cs, conn) ==> after == cs)
  {
    if !Unique(cs) {
      return;
    }
    var o := Hello(cs, conn, addr, hello.data, parse, hello.env);
    if o.handler.Some? {
      var s := Serve(o.clients, o.handler.value, inputs, parse);
      SameConnsUnique(o.clients, s.clients);
    }
    var last := if o.handler.None? then o.clients else Serve(o.clients, o.handler.value, inputs, parse).clients;
    var after := Disconnect(last, conn, close).clients;
    assert after == Others(last, conn);
    OthersUnique(last, conn);
    if !Has(cs, conn) {
      OthersOfAbsent(cs, conn);
    }
  }
}

=== FILE: text.dfy ===
/**
 The string operations the chat programs lean on, with Python's meaning:
 `str.strip()`, `str.split()` (runs of whitespace), `str.split(sep)` for a
 one-character separator, and `sep.join(parts)`.
 */
module Text {

  /** Python's `str.isspace` for one character: the characters `strip()` and
      `split()` treat as whitespace. */
  predicate IsSpace(c: char) {
    || c == ' '
    || ('\t' <= c <= '\r')
    || ('\U{1c}' <= c <= '\U{1f}')
    || c == '\U{85}' || c == '\U{a0}' || c == '\U{1680}'
    || ('\U{2000}' <= c <= '\U{200a}')
    || c == '\U{2028}' || c == '\U{2029}' || c == '\U{202f}' || c == '\U{205f}' || c == '\U{3000}'
  }

  predicate Blank(s: string) {
    forall i :: 0 <= i < |s| ==> IsSpace(s[i])
  }

  predicate StartsWith(s: string, prefix: string) {
    |prefix| <= |s| && s[..|prefix|] == prefix
  }

  /** Only whitespace in `s[lo..hi]`. */
  predicate SpaceBetween(s: string, lo: int, hi: int)
    requires 0 <= lo && hi <= |s|
  {
    forall k :: lo <= k < hi ==> IsSpace(s[k])
  }

  /** Number of leading whitespace characters of `s`. */
  function Lead(s: string): (n: nat)
    ensures n <= |s| && SpaceBetween(s, 0, n)
    ensures n == |s| || !IsSpace(s[n])
  {
    if |s| > 0 && IsSpace(s[0]) then 1 + Lead(s[1..]) else 0
  }

  /** Number of trailing whitespace characters of `s`. */
  function Trail(s: string): (n: nat)
    ensures n <= |s| && SpaceBetween(s, |s| - n, |s|)
    ensures n == |s| || !IsSpace(s[|s| - n - 1])
  {
    if |s| > 0 && IsSpace(s[|s| - 1]) then 1 + Trail(s[..|s| - 1]) else 0
  }

  /** `r` sits at offset `i` of `s` with only whitespace before and after it. */
  predicate Flanked(s: string, i: int, r: string) {
    0 <= i <= |s| - |r| && s[i..i + |r|] == r && SpaceBetween(s, 0, i) && SpaceBetween(s, i + |r|, |s|)
  }

  /** Python's `s.strip()`: the slice of `s` between its leading and trailing whitespace. */
  function Strip(s: string): (r: string)
    ensures exists i :: Flanked(s, i, r)
    ensures r == [] || (!IsSpace(r[0]) && !IsSpace(r[|r| - 1]))
    ensures r == [] <==> Blank(s)
  {
    var i := Lead(s);
    if i == |s| then
      assert Flanked(s, i, []);
      []
    else
      var j := |s| - Trail(s);
      assert i < j;
      var r := s[i..j];
      assert Flanked(s, i, r);
      assert r[0] == s[i];
      r
  }

  /** Stripping a string that already starts and ends with non-whitespace,
      followed by whitespace only, gives the string back. */
  lemma StripTrailingSpace(x: string, tail: string)
    requires |x| > 0 && !IsSpace(x[0]) && !IsSpace(x[|x| - 1])
    requires Blank(tail)
    ensures Strip(x + tail) == x
  {
    var s := x + tail;
    var r := Strip(s);
    var i :| Flanked(s, i, r);
    assert i == 0;
    assert s[|x| - 1] == x[|x| - 1];
    assert |r| == |x|;
    assert r == s[..|x|] == x;
  }

  /** Length of the non-whitespace token at the start of `t`. */
  function TokenLen(t: string): (n: nat)
    ensures n <= |t|
    ensures forall i :: 0 <= i < n ==> !IsSpace(t[i])
    ensures n == |t| || IsSpace(t[n])
  {
    if |t| == 0 || IsSpace(t[0]) then 0 else 1 + TokenLen(t[1..])
  }

  /** A word: non-empty and free of whitespace. */
  predicate IsWord(w: string) {
    |w| > 0 && forall i :: 0 <= i < |w| ==> !IsSpace(w[i])
  }

  /** Python's `s.split()` with no argument: the maximal runs of non-whitespace, in order. */
  function Words(s: string): (ws: seq<string>)
    ensures forall k :: 0 <= k < |ws| ==> IsWord(ws[k])
    ensures ws == [] <==> Blank(s)
    decreases |s|
  {
    var t := s[Lead(s)..];
    if t == [] then
      []
    else
      var n := TokenLen(t);
      [t[..n]] + Words(t[n..])
  }

  /** `sep.join(xs)`. */
  function JoinWith(xs: seq<string>, sep: string): string {
    if |xs| == 0 then ""
    else if |xs| == 1 then xs[0]
    else xs[0] + sep + JoinWith(xs[1..], sep)
  }

  /** Python's `" ".join(words)`. */
  function Unwords(ws: seq<string>): string {
    JoinWith(ws, " ")
  }

  /** A word followed by whitespace or the end is one token. */
  lemma {:induction false} TokenLenOfWord(w: string, rest: string)
    requires IsWord(w)
    requires rest == [] || IsSpace(rest[0])
    ensures TokenLen(w + rest) == |w|
    decreases |w|
  {
    if |w| > 1 {
      assert (w + rest)[1..] == w[1..] + rest;
      TokenLenOfWord(w[1..], rest);
    } else {
      assert (w + rest)[1..] == rest;
    }
  }

  /** Splitting words joined by single spaces gives the words back: `Unwords`
      is a right inverse of `Words` on lists of words. */
  lemma {:induction false} WordsOfUnwords(ws: seq<string>)
    requires forall k :: 0 <= k < |ws| ==> IsWord(ws[k])
    ensures Words(Unwords(ws)) == ws
    decreases |ws|
  {
    if |ws| == 0 {
    } else if |ws| == 1 {
      var w := ws[0];
      TokenLenOfWord(w, "");
      assert w + "" == w;
      assert w[|w|..] == [];
      assert w[..|w|] == w;
    } else {
      var w := ws[0];
      var u := Unwords(ws[1..]);
      var s := w + " " + u;
      assert Unwords(ws) == s;
      TokenLenOfWord(w, " " + u);
      assert s == w + (" " + u);
      assert s[..|w|] == w;
      assert s[|w|..] == " " + u;
      WordsOfUnwords(ws[1..]);
      assert Unwords(ws[1..]) == u;
      assert ws[1..][0] == ws[1];
      assert u != [] && !IsSpace(u[0]) by {
        if |ws[1..]| == 1 { assert u == ws[1]; } else { assert u == ws[1] + " " + Unwords(ws[2..]); assert u[0] == ws[1][0]; }
      }
      assert Lead(" " + u) == 1 by { assert (" " + u)[1..] == u; }
      assert (" " + u)[1..] == u == u[0..];
      assert Words(" " + u) == Words(u);
    }
  }

  /** `gaps[0] + ws[0] + gaps[1] + ... + ws[n - 1] + gaps[n]`: the words with
      the text around and between them. */
  function Interleave(ws: seq<string>, gaps: seq<string>): string
    requires |gaps| == |ws| + 1
    decreases |ws|
  {
    if |ws| == 0 then gaps[0] else gaps[0] + ws[0] + Interleave(ws[1..], gaps[1..])
  }

  /** Whitespace only, and at least one character of it between two words. */
  predicate Separators(gaps: seq<string>) {
    && (forall k :: 0 <= k < |gaps| ==> Blank(gaps[k]))
    && (forall k :: 0 < k < |gaps| - 1 ==> |gaps[k]| > 0)
  }

  /** `Words` finds the maximal runs of non-whitespace: a string made of words
      separated by whitespace of any kind and length, with whitespace or
      nothing around them, splits into exactly those words. Every string has
      such a decomposition (`InterleaveOfWords`), so this fixes `Words` on
      all inputs. */
  lemma {:induction false} WordsOfInterleave(ws: seq<string>, gaps: seq<string>)
    requires forall k :: 0 <= k < |ws| ==> IsWord(ws[k])
    requires |gaps| == |ws| + 1 && Separators(gaps)
    ensures Words(Interleave(ws, gaps)) == ws
    decreases |ws|
  {
    if |ws| > 0 {
      SeparatorsTail(gaps);
      AllWordsTail(ws);
      WordsOfInterleave(ws[1..], gaps[1..]);
      GapFirst(ws[1..], gaps[1..], |ws| == 1);
      InterleaveStep(ws, gaps);
    }
  }

  lemma AllWordsTail(ws: seq<string>)
    requires |ws| > 0 && forall k :: 0 <= k < |ws| ==> IsWord(ws[k])
    ensures IsWord(ws[0]) && forall k :: 0 <= k < |ws[1..]| ==> IsWord(ws[1..][k])
  {
  }

  /** One word and its gap in front of an already split remainder. */
  lemma InterleaveStep(ws: seq<string>, gaps: seq<string>)
    requires |ws| > 0 && |gaps| == |ws| + 1 && Blank(gaps[0]) && IsWord(ws[0])
    requires var rest := Interleave(ws[1..], gaps[1..]);
             (rest == [] || IsSpace(rest[0])) && Words(rest) == ws[1..]
    ensures Words(Interleave(ws, gaps)) == ws
  {
    WordAfterGap(gaps[0], ws[0], Interleave(ws[1..], gaps[1..]));
    assert [ws[0]] + ws[1..] == ws;
  }

  /** A blank gap, a word, then whitespace or nothing: the word comes first. */
  lemma WordAfterGap(g: string, w: string, rest: string)
    requires Blank(g) && IsWord(w) && (rest == [] || IsSpace(rest[0]))
    ensures Words(g + w + rest) == [w] + Words(rest)
  {
    var t := w + rest;
    assert t[0] == w[0];
    Assoc(g, w, rest);
    SkipSpace(g, t);
    WordThen(w, rest);
  }

  lemma SeparatorsTail(gaps: seq<string>)
    requires |gaps| > 0 && Separators(gaps)
    ensures Separators(gaps[1..])
  {
    forall k | 0 <= k < |gaps[1..]| ensures Blank(gaps[1..][k]) { assert gaps[1..][k] == gaps[k + 1]; }
    forall k | 0 < k < |gaps[1..]| - 1 ensures |gaps[1..][k]| > 0 { assert gaps[1..][k] == gaps[k + 1]; }
  }

  /** What follows a word starts with whitespace, or is empty after the last word. */
  lemma GapFirst(ws: seq<string>, gaps: seq<string>, last: bool)
    requires |gaps| == |ws| + 1 && Blank(gaps[0])
    requires last <==> |ws| == 0
    requires !last ==> |gaps[0]| > 0
    ensures var rest := Interleave(ws, gaps);
            rest == [] || IsSpace(rest[0])
  {
    var rest := Interleave(ws, gaps);
    if |gaps[0]| > 0 {
      assert rest[0] == gaps[0][0];
    } else {
      assert rest == gaps[0];
    }
  }

  /** Every string is its words with whitespace around and between them, so
      `WordsOfInterleave` speaks about every input. */
  lemma {:induction false} InterleaveOfWords(s: string) returns (gaps: seq<string>)
    ensures |gaps| == |Words(s)| + 1 && Separators(gaps)
    ensures Interleave(Words(s), gaps) == s
    decreases |s|
  {
    if Lead(s) == |s| {
      assert Blank(s) by { assert SpaceBetween(s, 0, |s|); }
      gaps := [s];
    } else {
      var g, w, rest := FirstWord(s);
      var more := InterleaveOfWords(rest);
      gaps := [g] + more;
      InnerGap(rest, more);
      SeparatorsCons(g, more);
      InterleaveCons(w, Words(rest), g, more);
    }
  }

  /** A string that is not blank: leading whitespace, its first word, and the rest. */
  lemma FirstWord(s: string) returns (g: string, w: string, rest: string)
    requires Lead(s) < |s|
    ensures s == g + w + rest && Blank(g) && IsWord(w) && (rest == [] || IsSpace(rest[0]))
    ensures Words(s) == [w] + Words(rest)
  {
    var i := Lead(s);
    var t := s[i..];
    var n := TokenLen(t);
    g, w, rest := s[..i], t[..n], t[n..];
    WordsUnfold(s);
    Token(t);
    LeadBlank(s);
    CutAt(t, n);
    CutAt(s, i);
    Assoc(g, w, rest);
  }

  lemma Assoc(a: string, b: string, c: string)
    ensures a + b + c == a + (b + c)
  {
  }

  lemma WordsUnfold(s: string)
    requires Lead(s) < |s|
    ensures var t := s[Lead(s)..];
            Words(s) == [t[..TokenLen(t)]] + Words(t[TokenLen(t)..])
  {
  }

  /** The token at the start of a string that starts with non-whitespace is a
      word, followed by whitespace or the end. */
  lemma Token(t: string)
    requires |t| > 0 && !IsSpace(t[0])
    ensures var n := TokenLen(t);
            IsWord(t[..n]) && (t[n..] == [] || IsSpace(t[n..][0]))
  {
    var n := TokenLen(t);
    forall k | 0 <= k < n ensures !IsSpace(t[..n][k]) { assert t[..n][k] == t[k]; }
    if n < |t| {
      assert t[n..][0] == t[n];
    }
  }

  lemma CutAt(s: string, i: nat)
    requires i <= |s|
    ensures s[..i] + s[i..] == s
  {
  }

  lemma LeadBlank(s: string)
    ensures Blank(s[..Lead(s)])
  {
    var i := Lead(s);
    forall k | 0 <= k < i ensures IsSpace(s[..i][k]) { assert SpaceBetween(s, 0, i); }
  }

  /** A blank gap in front of separators leaves separators. */
  lemma SeparatorsCons(g: string, more: seq<string>)
    requires Blank(g) && Separators(more) && |more| >= 1
    requires |more| > 1 ==> |more[0]| > 0
    ensures Separators([g] + more)
  {
    var gaps := [g] + more;
    forall k | 0 <= k < |gaps| ensures Blank(gaps[k]) {
      if k > 0 { assert gaps[k] == more[k - 1]; }
    }
    forall k | 0 < k < |gaps| - 1 ensures |gaps[k]| > 0 {
      assert gaps[k] == more[k - 1];
    }
  }

  lemma InterleaveCons(w: string, ws: seq<string>, g: string, gaps: seq<string>)
    requires |gaps| == |ws| + 1
    ensures Interleave([w] + ws, [g] + gaps) == g + w + Interleave(ws, gaps)
  {
    assert ([w] + ws)[1..] == ws && ([g] + gaps)[1..] == gaps;
  }

  /** Where a string starting with whitespace has words, its first gap is not empty. */
  lemma InnerGap(rest: string, gaps: seq<string>)
    requires |gaps| == |Words(rest)| + 1 && Interleave(Words(rest), gaps) == rest
    requires rest == [] || IsSpace(rest[0])
    ensures |Words(rest)| > 0 ==> |gaps[0]| > 0
  {
    var ws := Words(rest);
    if |ws| > 0 && |gaps[0]| == 0 {
      InterleaveStart(ws, gaps);
    }
  }

  /** With no leading gap, the text starts with the first word. */
  lemma InterleaveStart(ws: seq<string>, gaps: seq<string>)
    requires |gaps| == |ws| + 1 && |ws| > 0 && gaps[0] == [] && IsWord(ws[0])
    ensures var s := Interleave(ws, gaps);
            |s| > 0 && !IsSpace(s[0])
  {
    var s := Interleave(ws, gaps);
    assert s == ws[0] + Interleave(ws[1..], gaps[1..]);
    assert s[0] == ws[0][0];
  }

  /** Leading whitespace does not change the words. */
  lemma SkipSpace(g: string, t: string)
    requires Blank(g) && |t| > 0 && !IsSpace(t[0])
    ensures Words(g + t) == Words(t)
  {
    LeadOfSpace(g, t);
    assert (g + t)[|g|..] == t;
    assert t[Lead(t)..] == t;
  }

  lemma {:induction false} LeadOfSpace(g: string, t: string)
    requires Blank(g) && |t| > 0 && !IsSpace(t[0])
    ensures Lead(g + t) == |g|
    decreases |g|
  {
    if |g| > 0 {
      assert (g + t)[1..] == g[1..] + t;
      LeadOfSpace(g[1..], t);
    } else {
      assert g + t == t;
    }
  }

  /** A word followed by whitespace or the end is the first word. */
  lemma WordThen(w: string, rest: string)
    requires IsWord(w) && (rest == [] || IsSpace(rest[0]))
    ensures Words(w + rest) == [w] + Words(rest)
  {
    TokenLenOfWord(w, rest);
    var s := w + rest;
    assert Lead(s) == 0;
    assert s[0..] == s;
    assert s[..|w|] == w && s[|w|..] == rest;
  }

  /** Index of the first `d` in `s`. */
  function FirstIndex(s: string, d: char): (i: nat)
    requires d in s
    ensures i < |s| && s[i] == d && d !in s[..i]
  {
    if s[0] == d then 0 else assert d in s[1..]; 1 + FirstIndex(s[1..], d)
  }

  /** Python's `s.split(d)` for a one-character separator: the pieces between
      the separators; it always has at least one piece, and joining the pieces
      with the separator gives `s` back. */
  function SplitOn(s: string, d: char): (parts: seq<string>)
    ensures |parts| >= 1
    ensures forall k :: 0 <= k < |parts| ==> d !in parts[k]
    ensures JoinWith(parts, [d]) == s
    decreases |s|
  {
    if d !in s then [s]
    else
      var i := FirstIndex(s, d);
      var rest := SplitOn(s[i + 1..], d);
      assert s == s[..i] + [d] + s[i + 1..];
      [s[..i]] + rest
  }

  /** Joining separator-free pieces and splitting again gives the pieces back:
      the other direction of the `SplitOn` round trip. */
  lemma {:induction false} SplitOnJoin(parts: seq<string>, d: char)
    requires |parts| >= 1
    requires forall k :: 0 <= k < |parts| ==> d !in parts[k]
    ensures SplitOn(JoinWith(parts, [d]), d) == parts
    decreases |parts|
  {
    if |parts| > 1 {
      var p := parts[0];
      var u := JoinWith(parts[1..], [d]);
      var s := p + [d] + u;
      assert JoinWith(parts, [d]) == s;
      assert d in s by { assert s[|p|] == d; }
      var i := FirstIndex(s, d);
      assert i == |p|;
      assert s[..i] == p;
      assert s[i + 1..] == u;
      SplitOnJoin(parts[1..], d);
    }
  }

  /** Every piece but the last: the separator-terminated pieces of `s`. */
  function Init(parts: seq<string>): seq<string>
    requires |parts| >= 1
  {
    parts[..|parts| - 1]
  }

  function Last(parts: seq<string>): string
    requires |parts| >= 1
  {
    parts[|parts| - 1]
  }

  /** Splitting `a + b` is splitting `a`, then splitting the unfinished last
      piece of `a` continued by `b`. This is what makes carrying the unfinished
      piece over between reads lossless. */
  lemma {:induction false} SplitOnAppend(a: string, b: string, d: char)
    ensures SplitOn(a + b, d) == Init(SplitOn(a, d)) + SplitOn(Last(SplitOn(a, d)) + b, d)
    decreases |a|
  {
    if d in a {
      var i := FirstIndex(a, d);
      var tail := SplitOn(a[i + 1..], d);
      var rest := SplitOn(a[i + 1..] + b, d);
      assert SplitOn(a + b, d) == [a[..i]] + rest by {
        SplitOnFirst(a, b, d, i);
      }
      assert rest == Init(tail) + SplitOn(Last(tail) + b, d) by {
        SplitOnAppend(a[i + 1..], b, d);
      }
      assert SplitOn(a, d) == [a[..i]] + tail;
      InitLastCons(a[..i], tail);
    } else {
      assert SplitOn(a, d) == [a];
    }
  }

  /** Where `a` has a separator, `a + b` splits first at the same place. */
  lemma SplitOnFirst(a: string, b: string, d: char, i: nat)
    requires d in a && i == FirstIndex(a, d)
    ensures SplitOn(a + b, d) == [a[..i]] + SplitOn(a[i + 1..] + b, d)
  {
    assert (a + b)[i] == d;
    assert (a + b)[..i] == a[..i];
    assert d in a + b;
    assert FirstIndex(a + b, d) == i;
    assert (a + b)[i + 1..] == a[i + 1..] + b;
  }

  lemma InitLastCons(x: string, tail: seq<string>)
    requires |tail| >= 1
    ensures Init([x] + tail) == [x] + Init(tail) && Last([x] + tail) == Last(tail)
  {
  }
}

=== FILE: wire.dfy ===
/**
 The records the chat programs exchange, one JSON document per line.

 JSON text itself is not modelled: a decoded document is a `Json` value, and
 `json.dumps`/`json.loads` appear as an encoder and a parser handed in by the
 caller. Both programs only ever read string-valued fields of an object, so an
 object is a map from field name to string; every other document (an array, a
 number, a bare string) is `NonObject`, on which the programs' `msg["type"]`
 raises.
 */
module Wire {
  import opened Wrappers
  import opened Text

  datatype Json = Object(fields: map<string, string>) | NonObject

  /** What the server writes to a client. */
  datatype Record =
    | Chat(from: string, msg: string, time: string)
    | System(msg: string, time: string)
    | Private(from: string, msg: string, time: string)

  /** The JSON object the server builds for a record, with the field names the client reads. */
  function ToJson(r: Record): (j: Json)
    ensures j.Object? && "type" in j.fields && "msg" in j.fields && "time" in j.fields
    ensures j.fields["msg"] == r.msg && j.fields["time"] == r.time
    ensures ("from" in j.fields) <==> !r.System?
    ensures !r.System? ==> j.fields["from"] == r.from
    ensures j.fields["type"] == (match r case Chat(_, _, _) => "msg" case System(_, _) => "system" case Private(_, _, _) => "private")
  {
    match r
    case Chat(f, m, t) => Object(map["type" := "msg", "from" := f, "msg" := m, "time" := t])
    case System(m, t) => Object(map["type" := "system", "msg" := m, "time" := t])
    case Private(f, m, t) => Object(map["type" := "private", "from" := f, "msg" := m, "time" := t])
  }

  /** The guarantees of `json.dumps` (no indentation) and `json.loads` that the
      framing relies on: parsing an encoding gives the document back, and the
      encoding is one non-empty line that neither starts nor ends with whitespace. */
  ghost predicate Faithful(encode: Json -> string, parse: string -> Option<Json>) {
    forall j :: GoodEncoding(encode(j)) && parse(encode(j)) == Some(j)
  }

  predicate GoodEncoding(e: string) {
    |e| > 0 && '\n' !in e && !IsSpace(e[0]) && !IsSpace(e[|e| - 1])
  }

  /** One frame on the wire: the encoded document followed by the newline delimiter. */
  function Frame(encode: Json -> string, j: Json): string {
    encode(j) + "\n"
  }

  /** A received line that either program acts on: not blank, and parseable.
      Both receive loops skip every other line. */
  predicate Meaningful(line: string, parse: string -> Option<Json>) {
    !Blank(line) && parse(line).Some?
  }

  /** The lines of a run that are acted on, in order. */
  function KeepMeaningful(lines: seq<string>, parse: string -> Option<Json>): (kept: seq<string>)
    ensures forall k :: 0 <= k < |kept| ==> Meaningful(kept[k], parse)
    ensures forall k :: 0 <= k < |lines| && Meaningful(lines[k], parse) ==> lines[k] in kept
    ensures forall x :: x in kept ==> x in lines
    ensures |kept| <= |lines|
  {
    if lines == [] then []
    else if Meaningful(lines[0], parse) then [lines[0]] + KeepMeaningful(lines[1..], parse)
    else KeepMeaningful(lines[1..], parse)
  }

  /** The filter works line by line: a line is kept exactly when it is meaningful. */
  lemma KeepMeaningfulOne(line: string, parse: string -> Option<Json>)
    ensures KeepMeaningful([line], parse) == if Meaningful(line, parse) then [line] else []
  {
    assert [line][1..] == [];
  }

  /** ... and in order: filtering `a + b` keeps `a`'s lines before `b`'s. */
  lemma {:induction false} KeepMeaningfulAppend(a: seq<string>, b: seq<string>, parse: string -> Option<Json>)
    ensures KeepMeaningful(a + b, parse) == KeepMeaningful(a, parse) + KeepMeaningful(b, parse)
    decreases |a|
  {
    if a == [] {
      assert a + b == b;
    } else {
      assert (a + b)[0] == a[0] && (a + b)[1..] == a[1..] + b;
      KeepMeaningfulAppend(a[1..], b, parse);
    }
  }
}

=== FILE: wrappers.dfy ===
/** The optional value used wherever the chat programs look something up that may be absent. */
module Wrappers {

  datatype Option<+T> = None | Some(value: T)
}
